=== FILE: README.md ===
# Diamond-square terrain generator, modelled in Dafny

This project models the height-map engine of `terrain.js`. A `Terrain` is
built from a window origin `(x1, y1)`, a window side `dimension`, a `seed`,
a `roughness` and a `scale`. `generateHeights` does two things:

- It writes a 4 x 4 lattice of seed heights, with spacing
  `step = dimension * 2^scale / 2`, snapped around the origin.
- It then refines the lattice with diamond and square passes, halving the
  spacing each time until it reaches 1.

Each height is:

- the clamped mean of four neighbours,
- plus a displacement from a deterministic noise `frac(sin(x + 0.5 + (y || 0.5) * seed) * 1000)`,
- scaled by the spacing, the roughness and the extended map size.

The model is made of seven modules:

- `Lattice` (lattice.dfy): powers of two and lattice arithmetic.
- `Grid` (grid.dfy): the sparse height map, a `map<(int, int), real>`, with
  `getHeight`/`setHeight` and the coverage predicates.
- `Params` (params.dfy): the construction arguments, the defaulted scale,
  the extended size, the initial step and the snapped base lattice.
- `Noise` (noise.dfy): `normalize`, `random` and `displace`.
- `Passes` (passes.dfy): `generateDiamond`, `generateSquare`, and the loops
  that sweep a rectangle with them (seeds, diamonds and the two square
  families). Each loop has a complete contract: which cells get which value
  (computed from the grid the pass started from), and which cells stay
  unchanged.
- `Region` (region.dfy): how the active region moves from pass to pass.
- `Terrain` (terrain.dfy): `generateHeights` itself, the loop with its
  stale `half` guard.

The grid is a value. Every operation returns a new grid instead of
mutating the closure's `heights` array. `Math.sin` is the `sine` field of
`Config`, a function whose values are left abstract.

### Behaviours of the source that the model keeps

- `size` is computed from the caller's raw `scale`, before
  `scale = scale || 1` is applied. So displacement uses 2^scale with the raw
  value, while the step and `getScale` use the defaulted one.
  `SizeAgainstStep` shows what this does for scale 0: the size is then
  1.5 steps plus one, against 3 steps plus one for every other scale.
- `random` replaces a y of exactly 0 by 0.5 (`RandomRowZero`).
- The loop tests the `half` of the previous pass. The passes therefore run
  with steps `step0, step0 / 2, ..., 2`, and the last one runs with half 1.
  No pass runs at all when the initial step is below 4.

## Model

| member | source | states |
|---|---|---|
| Grid.GetHeight | terrain.js:158-160 | a cell reads as present exactly when it has been written, and then yields its stored height |
| Grid.SetHeight | terrain.js:169-172 | writing adds exactly the one cell, gives it the value, and leaves every other cell's height as it was |
| Grid.GetAfterSet | terrain.js:158-172 | reading a cell after writing it returns the written value; every other cell reads as before |
| Grid.SetStoredValue | terrain.js:169-172 | writing back the height a cell already holds leaves the grid unchanged |
| Grid.SetTwice | terrain.js:169-172 | a later write to a cell hides an earlier one |
| Params.GetScale | terrain.js:28 | the scale used by generation is the caller's scale, or exactly 1 when that was 0 |
| Params.GetSize | terrain.js:25 | the extended size, taken from the raw scale, is at least 1.5 windows plus one, so the displacement never divides by zero |
| Params.InitialStep | terrain.js:37 | the initial step is a whole multiple of the dimension, at least the dimension, and equal to it for a scale of 0 or 1 |
| Params.SizeAgainstStep | terrain.js:25-28 | for scale >= 1 the extended size is 3 * initial step + 1; for scale 0 the step falls back to the dimension and the size is 1.5 * step + 1 |
| Params.InitialStepPow2 | terrain.js:37 | with a power-of-two dimension the initial step is a power of two and a multiple of the dimension |
| Params.BaseStart | terrain.js:43-46 | the snapped start is a multiple of the step, and the origin lies in its second cell: start + step <= v < start + 2 * step |
| Params.BaseStartUnique | terrain.js:43-46 | the snapped start is the only multiple of the step with that property |
| Params.BaseLatticeFour | terrain.js:49-59 | [start, start + 3 * step] holds exactly four lattice points per axis, so 4 x 4 seeds |
| Noise.Normalize | terrain.js:219-221 | the result lies in [0, 1], equals the input when the input is already in [0, 1], and is the point of [0, 1] nearest to the input |
| Noise.NormalizeIdempotent | terrain.js:219-221 | clamping twice is clamping once |
| Noise.NormalizeMonotone | terrain.js:219-221 | clamping preserves the order of two heights |
| Noise.Frac | terrain.js:232 | `v - floor(v)` lies in [0, 1) and differs from v by a whole number |
| Noise.FracUnique | terrain.js:232 | any number in [0, 1) that differs from v by a whole number is `v - floor(v)` |
| Noise.YTerm | terrain.js:231 | `y || 0.5` is 0.5 for y = 0 and y itself otherwise, so it is never 0 |
| Noise.Random | terrain.js:230-233 | the noise lies in [0, 1) |
| Noise.RandomRowZero | terrain.js:231 | row y = 0 draws exactly the noise of row y = 0.5 |
| Noise.RandomSameArgument | terrain.js:230-233 | the noise depends on (x, y, seed) only through the sine argument x + (y or 0.5) * seed |
| Noise.Displace | terrain.js:209-211 | with zero roughness the displacement is 0 |
| Noise.DisplaceBounded | terrain.js:209-211 | the displacement's absolute value is at most range / (size * 2) * roughness / 2 |
| Passes.GenerateDiamond | terrain.js:121-130 | reads only written corners (the source fails or stores NaN on an unwritten one); adds exactly the centre, with the clamped mean of its four corners plus the error; keeps every other cell. Its partner is `DiamondWithinNeighbours` |
| Passes.GenerateSquare | terrain.js:140-149 | reads only written neighbours; adds exactly the mid-point, with the clamped mean of its four axis neighbours plus the error; keeps every other cell. Its partner is `SquareWithinNeighbours` |
| Passes.DiamondWithinNeighbours | terrain.js:121-130 | with no displacement, a diamond centre gets a height between the lowest and highest of its four diagonal neighbours |
| Passes.SquareWithinNeighbours | terrain.js:140-149 | with no displacement, a square mid-point gets a height between the lowest and highest of its four axis neighbours |
| Passes.SeedPass | terrain.js:55-59 | every lattice point of the rectangle gets its clamped displacement; no other cell changes; only those points are added |
| Passes.DiamondPass | terrain.js:88-92 | given the coarser lattice around the rectangle, every centre gets the clamped mean of its four corners as they were before the pass, plus its displacement; every corner read is a written cell (the requires of `GenerateDiamond`); no other cell changes and only the centres are added |
| Passes.SquareHPass | terrain.js:95-99 | given the coarser lattice and the diamond centres, every mid-point (x + half, y) gets the clamped mean of its four axis neighbours as they were before the pass, plus its displacement; every read is a written cell; no other cell changes and only those mid-points are added |
| Passes.SquareVPass | terrain.js:102-106 | the same for the mid-points (x, y + half) |
| Passes.PassInUnit | terrain.js:88-106 | a pass only adds heights in [0, 1] and keeps the other cells |
| Passes.PassFlat | terrain.js:88-106 | with no displacement, a pass over a flat grid leaves it flat |
| Passes.RefineCovers | terrain.js:87-106 | after diamonds and both square families every point of the half-spacing lattice of the region is written |
| Region.AxisAdvance | terrain.js:64-85 | re-centring or shrinking keeps the new region inside the coverage of the old lattice, makes it span whole steps, and keeps one of the two region shapes |
| Region.AxisWindow | terrain.js:67-85 | whichever shape the region has, it contains the requested window |
| Terrain.NewTerrain | terrain.js:19-22 | a new terrain keeps its construction arguments and holds no heights |
| Terrain.Seeds | terrain.js:55-59 | every point of the base lattice holds its clamped displacement at the initial spacing; every other cell keeps its height and no other cell is added; every height written is in [0, 1]; zero roughness keeps a flat grid flat |
| Terrain.Refine | terrain.js:87-106 | one refinement leaves the region covered at half the spacing. In the grid it leaves, every centre holds the clamped mean of its four corners plus its displacement, and every mid-point that of its four axis neighbours. Every other cell keeps its height, no other cell is added, every height written is in [0, 1], and zero roughness keeps a flat grid flat |
| Terrain.RefineRegion | terrain.js:63-109 | one turn of the loop re-centres the region on the window with a margin of half a step when the step is at most the dimension, and otherwise shrinks it by half a step on each side; the region keeps a valid shape and ends covered at the new spacing; it writes and keeps exactly the cells `Refine` does on the new region |
| Terrain.SmallWindow | terrain.js:25-109 | for a 4-wide window at the origin with scale 1: initial step 4, base lattice from -4, extended size 13; exactly two passes run, at steps 4 and 2; the cells (0, 0), (2, 0), (0, 2), (2, 2), (3, 3) and the seed (4, 0) are written, all in [0, 1] |
| Terrain.TinyWindow | terrain.js:37-63 | for a 2-wide window at (1, 1) with scale 1 the initial step is 2, no pass runs although the origin is not aligned, and the seeds at -2, 0, 2, 4 on each axis are written |
| Terrain.WideWindow | terrain.js:19-111 | generation of a 256-wide window at the origin with scale 1 (initial step 256) writes every cell of [0, 256) x [0, 256), all with heights in [0, 1] |
| Terrain.GenerateHeights | terrain.js:34-111 | no cell is lost; every height written is in [0, 1]; the 4 x 4 base lattice is written; when the initial step is at least 4 every cell of the window is written; zero roughness keeps a flat terrain flat; the passes run at the initial step halved down to 2, each a power of two of at least 2, and none runs when the initial step is below 4 |

## Left out

- The immediately invoked wrapper and the `window.Terrain` global are browser plumbing, so they are not modelled.
- `getHeights` returns the internal array by reference. That is aliasing, not behaviour, so it is not modelled.
- Floating point is not modelled: heights and noise are `real`s, and `Math.sin` is an abstract function. Bit-exact IEEE-754 results and the actual sine values are therefore out of scope.
- The nested JavaScript arrays, keyed by `heights[x][y]` and allowing negative or fractional keys, are modelled as one map keyed by integer pairs.
- An omitted `scale` makes `size` NaN in the source, because `Math.pow(2, undefined)` is NaN. The model's scale is a natural number, and 0 stands only for an explicit 0.
- With an initial step of 1, the source's `half` is 0.5 while the model's integer half is 0. Both fail the loop guard, so nothing else differs.
- Presets and a boundary mask do not exist in `terrain.js`, so they are not modelled.
- Gruntfile.js holds build configuration only, so it is not modelled.
- Passes.GenerateDiamond, Passes.GenerateSquare: require their four neighbours to be written. In the source an unwritten neighbour reads as `undefined`, or throws when the whole column is missing, and the height becomes NaN. The model does not represent NaN, so each call must prove its reads land on written cells.
- Terrain.GenerateHeights: requires a power-of-two dimension. With any other positive dimension the source's steps and halves become fractional, and it writes cells at fractional coordinates, which the integer-keyed grid does not represent. With a dimension of 0 the step is 0 and the snapped start is NaN; with a negative dimension the end lies before the start. In both cases the source writes nothing. The model rejects both cases: `dimension` is a natural number, and 0 is not a power of two.
- Terrain.GenerateHeights: requires, once a pass runs (initial step at least 4), an origin that is a multiple of the dimension. With a misaligned origin the source can read a cell it never wrote: it throws a TypeError when the whole column is missing and stores NaN when only the cell is. For example, dimension 4, scale 1 and x1 = 2 give a first diamond at x = 0 that reads the missing column -2; with origin (0, 2) instead, the first diamond at (-2, 0) reads the unwritten cell (-4, -2) of an existing column and stores NaN, which normalize passes through. When no pass runs, as for dimension 2 and scale 1, nothing is read and any origin is accepted.
- Terrain.GenerateHeights: states the value of each cell only one refinement at a time, through the contracts of `Refine` and the passes. It does not state a closed form for the final heights, which compound through every earlier pass.

=== FILE: grid.dfy ===
/**
 The sparse height grid of a terrain: heights keyed by integer (x, y)
 pairs, written with `SetHeight` and read with `GetHeight`, together with the
 lattice-coverage and value predicates the generator's proofs are stated in.
 */
module Grid {
  import opened Lattice

  datatype Option<T> = None | Some(value: T)

  /** Heights of the cells written so far; the plane is unbounded. */
  type Grid = map<(int, int), real>

  /** True iff cell (x, y) has been written. */
  predicate Has(g: Grid, x: int, y: int)
  {
    (x, y) in g
  }

  /** The stored height at (x, y), or None for a cell never written. */
  function GetHeight(g: Grid, x: int, y: int): (r: Option<real>)
    ensures r.Some? <==> Has(g, x, y)
    ensures r.Some? ==> r.value == g[(x, y)]
  {
    if (x, y) in g then Some(g[(x, y)]) else None
  }

  /** `GetHeight` restricted to written cells: the stored height of a cell
      that has been written. The passes read only such cells, so the value
      for an unwritten cell is never observed. */
  function At(g: Grid, x: int, y: int): (r: real)
    ensures Has(g, x, y) ==> GetHeight(g, x, y) == Some(r)
  {
    if (x, y) in g then g[(x, y)] else 0.0
  }

  /** Overwrites (or creates) one cell. */
  function SetHeight(g: Grid, x: int, y: int, v: real): (r: Grid)
    ensures r.Keys == g.Keys + {(x, y)}
    ensures r[(x, y)] == v
    ensures forall k :: k in g && k != (x, y) ==> r[k] == g[k]
  {
    g[(x, y) := v]
  }

  /** Reading a cell back after writing it returns the value written, and
      every other cell reads as before. */
  lemma GetAfterSet(g: Grid, x: int, y: int, v: real, x': int, y': int)
    ensures GetHeight(SetHeight(g, x, y, v), x, y) == Some(v)
    ensures (x', y') != (x, y) ==>
              GetHeight(SetHeight(g, x, y, v), x', y') == GetHeight(g, x', y')
  {
  }

  /** Writing back the value a cell already holds leaves the grid unchanged. */
  lemma SetStoredValue(g: Grid, x: int, y: int)
    requires Has(g, x, y)
    ensures SetHeight(g, x, y, g[(x, y)]) == g
  {
  }

  /** A later write to the same cell hides an earlier one. */
  lemma SetTwice(g: Grid, x: int, y: int, a: real, b: real)
    ensures SetHeight(SetHeight(g, x, y, a), x, y, b) == SetHeight(g, x, y, b)
  {
  }

  /** Cell `k` is a point of the lattice of spacing `s` anchored at (ox, oy)
      inside the rectangle [ox, ex] x [oy, ey]. */
  predicate LatticeCell(k: (int, int), s: int, ox: int, ex: int, oy: int, ey: int)
    requires s > 0
  {
    ox <= k.0 <= ex && oy <= k.1 <= ey && OnLattice(k.0, ox, s) && OnLattice(k.1, oy, s)
  }

  /** Every lattice point of the rectangle has been written. */
  ghost predicate Covers(g: Grid, s: int, ox: int, ex: int, oy: int, ey: int)
    requires s > 0
  {
    forall k {:trigger LatticeCell(k, s, ox, ex, oy, ey)} :: LatticeCell(k, s, ox, ex, oy, ey) ==> k in g
  }

  /** Every cell of `g` is either one `g0` already held, unchanged, or holds a
      height in [0, 1]. */
  predicate WrittenInUnit(g0: Grid, g: Grid)
  {
    forall k :: k in g ==> (k in g0 && g[k] == g0[k]) || (0.0 <= g[k] <= 1.0)
  }

  /** Every cell holds a height in [0, 1]. */
  predicate AllInUnit(g: Grid)
  {
    forall k :: k in g ==> 0.0 <= g[k] <= 1.0
  }

  /** Every cell holds height 0 (the flat terrain). */
  predicate AllZero(g: Grid)
  {
    forall k :: k in g ==> g[k] == 0.0
  }

  /** Coverage of a rectangle carries over to a sub-rectangle whose corner
      lies on the same lattice. */
  lemma CoversSub(g: Grid, s: int, ox: int, ex: int, oy: int, ey: int,
                  ox': int, ex': int, oy': int, ey': int)
    requires s > 0 && Covers(g, s, ox, ex, oy, ey)
    requires ox <= ox' && ex' <= ex && OnLattice(ox', ox, s)
    requires oy <= oy' && ey' <= ey && OnLattice(oy', oy, s)
    ensures Covers(g, s, ox', ex', oy', ey')
  {
    forall k | LatticeCell(k, s, ox', ex', oy', ey')
      ensures k in g
    {
      OnLatticeTrans(k.0, ox', ox, s);
      OnLatticeTrans(k.1, oy', oy, s);
      assert LatticeCell(k, s, ox, ex, oy, ey);
    }
  }

  /** Coverage survives any extension of the grid. */
  lemma CoversGrow(g: Grid, g': Grid, s: int, ox: int, ex: int, oy: int, ey: int)
    requires s > 0 && Covers(g, s, ox, ex, oy, ey) && g.Keys <= g'.Keys
    ensures Covers(g', s, ox, ex, oy, ey)
  {
  }

  /** `WrittenInUnit` composes along a sequence of grids. */
  lemma WrittenInUnitTrans(g0: Grid, g1: Grid, g2: Grid)
    requires WrittenInUnit(g0, g1) && WrittenInUnit(g1, g2)
    ensures WrittenInUnit(g0, g2)
  {
  }

  /** A grid written entirely in [0, 1] from one that was stays in [0, 1]. */
  lemma WrittenInUnitAll(g0: Grid, g: Grid)
    requires AllInUnit(g0) && WrittenInUnit(g0, g)
    ensures AllInUnit(g)
  {
  }
}

=== FILE: lattice.dfy ===
/**
 Integer lattice arithmetic used by the diamond-square generator: powers of
 two (the window side and every step are powers of two) and membership of a
 coordinate in the lattice of spacing `s` anchored at `origin`.
 */
module Lattice {

  /** 2 raised to `e`. */
  function Pow2(e: nat): (r: nat)
    ensures r >= 1
    ensures e >= 1 ==> r % 2 == 0
  {
    if e == 0 then 1 else 2 * Pow2(e - 1)
  }

  /** True iff `n` is a positive power of two (1, 2, 4, ...). */
  predicate IsPow2(n: int)
    decreases if n > 0 then n else 0
  {
    n == 1 || (n > 1 && n % 2 == 0 && IsPow2(n / 2))
  }

  /** True iff `v` lies on the lattice of spacing `s` through `origin`. */
  predicate OnLattice(v: int, origin: int, s: int)
    requires s > 0
  {
    (v - origin) % s == 0
  }

  /** A multiple of `s` leaves no remainder. */
  lemma {:induction false} MulMod(k: int, s: int)
    requires s > 0
    ensures (k * s) % s == 0
  {
    var q := (k * s) / s;
    var r := (k * s) % s;
    assert (k - q) * s == r;
    if k - q >= 1 {
      MulAtLeast(k - q, s);
    } else if k - q <= -1 {
      MulAtLeast(q - k, s);
    }
  }

  /** A positive multiple of `s` is at least `s`. */
  lemma MulAtLeast(m: int, s: int)
    requires m >= 1 && s > 0
    ensures m * s >= s
  {
  }

  /** A number without remainder is the multiple its quotient says. */
  lemma DivExact(d: int, s: int)
    requires s > 0 && d % s == 0
    ensures d == (d / s) * s
  {
  }

  /** Lattices are closed under a step of the spacing, in either direction. */
  lemma OnLatticeStep(v: int, origin: int, s: int, k: int)
    requires s > 0 && OnLattice(v, origin, s)
    ensures OnLattice(v + k * s, origin, s)
  {
    DivExact(v - origin, s);
    assert v + k * s - origin == ((v - origin) / s + k) * s;
    MulMod((v - origin) / s + k, s);
  }

  /** Lattice membership is transitive through a lattice point. */
  lemma OnLatticeTrans(v: int, a: int, b: int, s: int)
    requires s > 0 && OnLattice(v, a, s) && OnLattice(a, b, s)
    ensures OnLattice(v, b, s)
  {
    DivExact(v - a, s);
    DivExact(a - b, s);
    assert v - b == ((v - a) / s + (a - b) / s) * s;
    MulMod((v - a) / s + (a - b) / s, s);
  }

  /** Lattice membership is symmetric. */
  lemma OnLatticeSym(v: int, a: int, s: int)
    requires s > 0 && OnLattice(v, a, s)
    ensures OnLattice(a, v, s)
  {
    DivExact(v - a, s);
    assert a - v == (-((v - a) / s)) * s;
    MulMod(-((v - a) / s), s);
  }

  /** A point of the fine lattice is on the coarse lattice through `a` or through `a + h`. */
  lemma OnLatticeSplit(v: int, a: int, h: int)
    requires h > 0 && OnLattice(v, a, h)
    ensures OnLattice(v, a, 2 * h) || OnLattice(v, a + h, 2 * h)
  {
    DivExact(v - a, h);
    var k := (v - a) / h;
    var m := k / 2;
    if k % 2 == 0 {
      Regroup(m, h, 0);
      MulMod(m, 2 * h);
    } else {
      Regroup(m, h, 1);
      MulMod(m, 2 * h);
    }
  }

  /** `(2m + b) * h` regrouped as a multiple of `2h` plus `b * h`. */
  lemma Regroup(m: int, h: int, b: int)
    ensures (2 * m + b) * h == m * (2 * h) + b * h
  {
  }

  /** The coarse lattices through `a` and through `a + h` share no point. */
  lemma OnLatticeDisjoint(v: int, a: int, h: int)
    requires h > 0 && OnLattice(v, a, 2 * h)
    ensures !OnLattice(v, a + h, 2 * h)
  {
    if OnLattice(v, a + h, 2 * h) {
      OnLatticeSym(v, a + h, 2 * h);
      OnLatticeTrans(a + h, v, a, 2 * h);
      DivExact(h, 2 * h);
      assert false;
    }
  }

  /** Between two consecutive lattice points there is no lattice point:
      a lattice point above `a - s` is at least `a`. */
  lemma OnLatticeGap(v: int, a: int, s: int)
    requires s > 0 && OnLattice(v, a, s) && v > a - s
    ensures v >= a
  {
    DivExact(v - a, s);
    var k := (v - a) / s;
    if k <= -1 {
      MulAtLeast(-k, s);
    }
  }

  /** Mirror image of `OnLatticeGap`: a lattice point below `a + s` is at most `a`. */
  lemma OnLatticeGapBelow(v: int, a: int, s: int)
    requires s > 0 && OnLattice(v, a, s) && v < a + s
    ensures v <= a
  {
    DivExact(v - a, s);
    var k := (v - a) / s;
    if k >= 1 {
      MulAtLeast(k, s);
    }
  }

  /** Halving a power of two above 1 gives a power of two. */
  lemma HalfPow2(n: int)
    requires IsPow2(n) && n > 1
    ensures IsPow2(n / 2) && n == 2 * (n / 2)
  {
  }

  /** Doubling a power of two gives a power of two. */
  lemma DoublePow2(n: int)
    requires IsPow2(n)
    ensures IsPow2(2 * n)
  {
    assert (2 * n) / 2 == n;
  }

  /** A power of two times 2^e is a power of two. */
  lemma {:induction false} MulPow2(n: int, e: nat)
    requires IsPow2(n)
    ensures IsPow2(n * Pow2(e))
  {
    if e > 0 {
      MulPow2(n, e - 1);
      assert n * Pow2(e) == 2 * (n * Pow2(e - 1));
      DoublePow2(n * Pow2(e - 1));
    }
  }

  /** The smaller of two powers of two divides the larger. */
  lemma {:induction false} Pow2Divides(a: int, b: int)
    requires IsPow2(a) && IsPow2(b) && a <= b
    ensures b % a == 0
    decreases b
  {
    if a == 1 {
    } else {
      HalfPow2(a);
      HalfPow2(b);
      Pow2Divides(a / 2, b / 2);
      DivExact(b / 2, a / 2);
      assert b == ((b / 2) / (a / 2)) * a;
      MulMod((b / 2) / (a / 2), a);
    }
  }

  /** Two multiples of `d` with `a < b` are at least `d` apart. */
  lemma MultipleGap(a: int, b: int, d: int)
    requires d > 0 && a % d == 0 && b % d == 0 && a < b
    ensures a + d <= b
  {
    DivExact(a, d);
    DivExact(b, d);
    var k := b / d - a / d;
    assert b - a == k * d;
    MulAtLeast(k, d);
  }
}

=== FILE: noise.dfy ===
/**
 The pure helpers of the generator: clamping into [0, 1]
 (terrain.js:219-221), the coordinate-hashed noise (terrain.js:230-233) and
 the displacement built from it (terrain.js:209-211).
 */
module Noise {
  import opened Params

  function Abs(v: real): real
  {
    if v < 0.0 then -v else v
  }

  /** Distance between two heights. */
  function Dist(a: real, b: real): real
  {
    Abs(a - b)
  }

  /** Clamps a height into [0, 1]: the nearest point of [0, 1] to `n`. */
  function Normalize(n: real): (r: real)
    ensures 0.0 <= r <= 1.0
    ensures 0.0 <= n <= 1.0 ==> r == n
    ensures forall v :: 0.0 <= v <= 1.0 ==> Dist(r, n) <= Dist(v, n)
  {
    if n > 1.0 then 1.0 else if n < 0.0 then 0.0 else n
  }

  /** Clamping twice is clamping once. */
  lemma NormalizeIdempotent(n: real)
    ensures Normalize(Normalize(n)) == Normalize(n)
  {
  }

  /** Clamping never reverses the order of two heights. */
  lemma NormalizeMonotone(a: real, b: real)
    requires a <= b
    ensures Normalize(a) <= Normalize(b)
  {
  }

  /** The fractional part `v - floor(v)`: the unique number in [0, 1) that
      differs from `v` by a whole number. */
  function Frac(v: real): (r: real)
    ensures 0.0 <= r < 1.0
    ensures (v - r).Floor as real == v - r
  {
    v - v.Floor as real
  }

  /** Any number in [0, 1) that differs from `v` by a whole number is `Frac(v)`. */
  lemma FracUnique(v: real, r: real, n: int)
    requires 0.0 <= r < 1.0 && v - r == n as real
    ensures r == Frac(v)
  {
    assert v.Floor == n;
  }

  /** The y term of the noise argument: `y || 0.5`, so a y of exactly 0 is
      replaced by 0.5. */
  function YTerm(y: real): (t: real)
    ensures t != 0.0
    ensures y == 0.0 ==> t == 0.5
    ensures y != 0.0 ==> t == y
  {
    if y == 0.0 then 0.5 else y
  }

  /** Deterministic noise in [0, 1) from a coordinate and the seed:
      frac(sin(x + 0.5 + (y || 0.5) * seed) * 1000). Only (x, y, seed) and
      the sine enter it; no state does. */
  function Random(sine: real -> real, seed: real, x: real, y: real): (r: real)
    ensures 0.0 <= r < 1.0
  {
    Frac(sine(x + 0.5 + YTerm(y) * seed) * 1000.0)
  }

  /** The falsy-zero quirk: row 0 draws exactly the noise of row 0.5. */
  lemma RandomRowZero(sine: real -> real, seed: real, x: real)
    ensures Random(sine, seed, x, 0.0) == Random(sine, seed, x, 0.5)
  {
  }

  /** Two coordinates whose sine arguments coincide draw the same noise, and
      the seed enters only through its product with the y term. */
  lemma RandomSameArgument(sine: real -> real, seed: real, x: real, y: real,
                           seed': real, x': real, y': real)
    requires x + YTerm(y) * seed == x' + YTerm(y') * seed'
    ensures Random(sine, seed, x, y) == Random(sine, seed', x', y')
  {
    assert x + 0.5 + YTerm(y) * seed == x' + 0.5 + YTerm(y') * seed';
  }

  /** The largest displacement `range` can give: half of
      range / (size * 2) * roughness, in absolute value. */
  function DisplaceBound(c: Config, range: int): real
  {
    Abs((range as real) / (GetSize(c) * 2.0) * c.roughness) / 2.0
  }

  /** The noise offset added to a height refined at lattice spacing `range`:
      (random(x, y) - 0.5) * (range / (size * 2) * roughness), with the size
      taken from the raw scale. */
  function Displace(c: Config, x: int, y: int, range: int): (r: real)
    ensures c.roughness == 0.0 ==> r == 0.0
  {
    (Random(c.sine, c.seed, x as real, y as real) - 0.5) *
    ((range as real) / (GetSize(c) * 2.0) * c.roughness)
  }

  /** A displacement never exceeds half of range / (size * 2) * roughness in
      absolute value, so it shrinks with the lattice spacing. */
  lemma DisplaceBounded(c: Config, x: int, y: int, range: int)
    ensures Abs(Displace(c, x, y, range)) <= DisplaceBound(c, range)
  {
    var n := Random(c.sine, c.seed, x as real, y as real) - 0.5;
    var amp := (range as real) / (GetSize(c) * 2.0) * c.roughness;
    assert Displace(c, x, y, range) == n * amp;
    assert DisplaceBound(c, range) == Abs(amp) / 2.0;
    BoundedProduct(n, amp);
  }

  /** A factor of absolute value at most 1/2 at most halves the other. */
  lemma BoundedProduct(n: real, amp: real)
    requires -0.5 <= n <= 0.5
    ensures Abs(n * amp) <= Abs(amp) / 2.0
  {
    if amp >= 0.0 {
      assert -0.5 * amp <= n * amp <= 0.5 * amp;
    } else {
      assert 0.5 * amp <= n * amp <= -0.5 * amp;
    }
  }
}

=== FILE: params.dfy ===
/**
 What a terrain is constructed with (terrain.js:19-28) and the quantities
 derived from it: the defaulted scale, the extended size that normalises
 displacement, the initial lattice step and the snapped base lattice.
 */
module Params {
  import opened Lattice

  /** Construction arguments. `scale` is the caller's raw value (0 stands
      for an explicit 0 only); `sine` stands for the platform's `Math.sin`,
      whose values the model leaves abstract. */
  datatype Config = Config(
    x1: int,
    y1: int,
    dimension: nat,
    seed: real,
    roughness: real,
    scale: nat,
    sine: real -> real)

  /** The scale generation uses: `scale || 1`. */
  function GetScale(c: Config): (s: nat)
    ensures s >= 1
    ensures c.scale == 0 ==> s == 1
    ensures c.scale != 0 ==> s == c.scale
  {
    if c.scale == 0 then 1 else c.scale
  }

  /** The extended map size, computed from the RAW scale before it is
      defaulted: dimension * 2^scale / 2 * 3 + 1. */
  function GetSize(c: Config): (r: real)
    ensures r >= 1.0
    ensures r >= 1.5 * (c.dimension as real) + 1.0
  {
    var d := c.dimension as real;
    var p := Pow2(c.scale) as real;
    assert d * p >= d * 1.0 by {
      assert d * (p - 1.0) >= 0.0;
    }
    d * p / 2.0 * 3.0 + 1.0
  }

  /** The spacing of the coarsest lattice: dimension * 2^scale / 2, with the
      defaulted scale. It is a whole number because that scale is at least 1. */
  function InitialStep(c: Config): (step: int)
    ensures step >= c.dimension
    ensures c.dimension > 0 ==> step % c.dimension == 0
    ensures c.scale <= 1 ==> step == c.dimension
  {
    var p := Pow2(GetScale(c) - 1);
    assert c.dimension * p >= c.dimension;
    WholeMultiple(c.dimension, p);
    c.dimension * p
  }

  /** `d * p` is a whole multiple of a positive `d`. */
  lemma WholeMultiple(d: int, p: int)
    ensures d > 0 ==> (d * p) % d == 0
  {
    if d > 0 {
      MulMod(p, d);
      assert p * d == d * p;
    }
  }

  /** The defaulted scale and the raw one agree unless the caller passed 0:
      then the size still uses 2^0 while the step uses 2^1, so the extended
      size is 1.5 steps plus one instead of 3 steps plus one. */
  lemma SizeAgainstStep(c: Config)
    ensures c.scale >= 1 ==> GetSize(c) == 3.0 * (InitialStep(c) as real) + 1.0
    ensures c.scale == 0 ==>
              InitialStep(c) == c.dimension &&
              GetSize(c) == 1.5 * (InitialStep(c) as real) + 1.0
  {
    if c.scale >= 1 {
      assert Pow2(c.scale) == 2 * Pow2(c.scale - 1);
      assert (Pow2(c.scale) as real) / 2.0 == Pow2(c.scale - 1) as real;
      assert (c.dimension as real) * (Pow2(c.scale - 1) as real) ==
             (c.dimension * Pow2(c.scale - 1)) as real;
    }
  }

  /** With a power-of-two side the initial step is a power of two, so every
      step obtained by halving it is one as well. */
  lemma InitialStepPow2(c: Config)
    requires IsPow2(c.dimension)
    ensures IsPow2(InitialStep(c))
    ensures InitialStep(c) % c.dimension == 0
  {
    MulPow2(c.dimension, GetScale(c) - 1);
    Pow2Divides(c.dimension, InitialStep(c));
  }

  /** The first corner of the base lattice along one axis:
      floor(v / step) * step - step. It lies on the lattice of multiples of
      `step`, and `v` falls in its second cell. */
  function BaseStart(v: int, step: int): (sx: int)
    requires step > 0
    ensures sx % step == 0
    ensures sx + step <= v < sx + 2 * step
  {
    MulMod(v / step - 1, step);
    (v / step - 1) * step
  }

  /** `BaseStart` is the only multiple of `step` with that property. */
  lemma BaseStartUnique(v: int, step: int, m: int)
    requires step > 0 && m % step == 0 && m + step <= v < m + 2 * step
    ensures m == BaseStart(v, step)
  {
    var b := BaseStart(v, step);
    if m < b {
      MultipleGap(m, b, step);
    } else if b < m {
      MultipleGap(b, m, step);
    }
  }

  /** The base lattice of one axis, [sx, sx + 3 step], has exactly four
      lattice points. */
  lemma BaseLatticeFour(sx: int, step: int, v: int)
    requires step > 0
    ensures OnLattice(v, sx, step) && sx <= v <= sx + 3 * step <==>
            v == sx || v == sx + step || v == sx + 2 * step || v == sx + 3 * step
  {
    if v == sx || v == sx + step || v == sx + 2 * step || v == sx + 3 * step {
      assert OnLattice(sx, sx, step);
      OnLatticeStep(sx, sx, step, (v - sx) / step);
    }
    if OnLattice(v, sx, step) && sx <= v <= sx + 3 * step {
      BaseLatticeOnly(sx, step, v);
    }
  }

  /** The only-if half of `BaseLatticeFour`. */
  lemma BaseLatticeOnly(sx: int, step: int, v: int)
    requires step > 0 && OnLattice(v, sx, step) && sx <= v <= sx + 3 * step
    ensures v == sx || v == sx + step || v == sx + 2 * step || v == sx + 3 * step
  {
    DivExact(v - sx, step);
    var k := (v - sx) / step;
    if k < 0 {
      MulAtLeast(-k, step);
    } else if k > 3 {
      MulAtLeast(k - 3, step);
    }
    assert k == 0 || k == 1 || k == 2 || k == 3;
  }
}

=== FILE: passes.dfy ===
/**
 One refinement pass of the diamond-square generator (terrain.js:87-106,
 121-149): diamond centres first, then the two families of square
 mid-points. Each pass is a method on an immutable grid; its contract says
 exactly which cells it writes, with which value, and that every other cell
 is left as it was.
 */
module Passes {
  import opened Lattice
  import opened Grid
  import opened Params
  import opened Noise

  /** The four diagonal neighbours of (x, y) at distance `half` are written. */
  predicate DiamondReady(g: Grid, x: int, y: int, half: int)
  {
    Has(g, x - half, y - half) && Has(g, x + half, y - half) &&
    Has(g, x - half, y + half) && Has(g, x + half, y + half)
  }

  /** The four axis neighbours of (x, y) at distance `half` are written. */
  predicate SquareReady(g: Grid, x: int, y: int, half: int)
  {
    Has(g, x - half, y) && Has(g, x + half, y) &&
    Has(g, x, y - half) && Has(g, x, y + half)
  }

  /** Mean of the four diagonal neighbours. */
  function DiamondMean(g: Grid, x: int, y: int, half: int): real
  {
    (At(g, x - half, y - half) + At(g, x + half, y - half) +
     At(g, x - half, y + half) + At(g, x + half, y + half)) / 4.0
  }

  /** Mean of the four axis neighbours. */
  function SquareMean(g: Grid, x: int, y: int, half: int): real
  {
    (At(g, x - half, y) + At(g, x + half, y) +
     At(g, x, y - half) + At(g, x, y + half)) / 4.0
  }

  /** The height a pass gives the diamond centre (x, y), `err` being the
      pass's displacement. */
  function DiamondValue(err: (int, int) -> real, g: Grid, x: int, y: int, half: int): real
  {
    Normalize(DiamondMean(g, x, y, half) + err(x, y))
  }

  /** The height a pass gives the square mid-point (x, y). */
  function SquareValue(err: (int, int) -> real, g: Grid, x: int, y: int, half: int): real
  {
    Normalize(SquareMean(g, x, y, half) + err(x, y))
  }

  /** Sets the centre (x, y) to the clamped mean of its diagonal neighbours
      plus `error`; the neighbours must already be written. */
  function GenerateDiamond(g: Grid, x: int, y: int, half: int, error: real): (r: Grid)
    requires DiamondReady(g, x, y, half)
    ensures r.Keys == g.Keys + {(x, y)}
    ensures r[(x, y)] == Normalize(DiamondMean(g, x, y, half) + error)
    ensures forall k :: k in g && k != (x, y) ==> r[k] == g[k]
  {
    SetHeight(g, x, y, Normalize(DiamondMean(g, x, y, half) + error))
  }

  /** Sets the mid-point (x, y) to the clamped mean of its axis neighbours
      plus `error`; the neighbours must already be written. */
  function GenerateSquare(g: Grid, x: int, y: int, half: int, error: real): (r: Grid)
    requires SquareReady(g, x, y, half)
    ensures r.Keys == g.Keys + {(x, y)}
    ensures r[(x, y)] == Normalize(SquareMean(g, x, y, half) + error)
    ensures forall k :: k in g && k != (x, y) ==> r[k] == g[k]
  {
    SetHeight(g, x, y, Normalize(SquareMean(g, x, y, half) + error))
  }

  /** Without displacement a diamond centre stays within the heights of its
      neighbours: averaging never leaves their range. */
  lemma DiamondWithinNeighbours(g: Grid, x: int, y: int, half: int, lo: real, hi: real)
    requires 0.0 <= lo <= hi <= 1.0
    requires DiamondReady(g, x, y, half)
    requires lo <= g[(x - half, y - half)] <= hi && lo <= g[(x + half, y - half)] <= hi
    requires lo <= g[(x - half, y + half)] <= hi && lo <= g[(x + half, y + half)] <= hi
    ensures lo <= GenerateDiamond(g, x, y, half, 0.0)[(x, y)] <= hi
  {
  }

  /** Without displacement a square mid-point stays within the heights of
      its neighbours. */
  lemma SquareWithinNeighbours(g: Grid, x: int, y: int, half: int, lo: real, hi: real)
    requires 0.0 <= lo <= hi <= 1.0
    requires SquareReady(g, x, y, half)
    requires lo <= g[(x - half, y)] <= hi && lo <= g[(x + half, y)] <= hi
    requires lo <= g[(x, y - half)] <= hi && lo <= g[(x, y + half)] <= hi
    ensures lo <= GenerateSquare(g, x, y, half, 0.0)[(x, y)] <= hi
  {
  }

  /** Along one axis, the neighbours at distance `half` of a point of the
      lattice through `o` lie on the lattice through `o - half` and not on
      the one through `o`. */
  lemma AxisNeighbours(v: int, o: int, half: int)
    requires half >= 1 && OnLattice(v, o, 2 * half)
    ensures OnLattice(v - half, o - half, 2 * half) && OnLattice(v + half, o - half, 2 * half)
    ensures !OnLattice(v - half, o, 2 * half) && !OnLattice(v + half, o, 2 * half)
  {
    OnLatticeStep(v, o, 2 * half, 1);
    assert OnLattice(v + half, o - half, 2 * half);
    OnLatticeDisjoint(v - half, o - half, half);
    OnLatticeDisjoint(v + half, o - half, half);
  }

  /** Between consecutive points of a lattice there is no other point of it. */
  lemma NoPointBetween(v: int, a: int, o: int, s: int)
    requires s > 0 && OnLattice(v, o, s) && OnLattice(a, o, s) && a < v
    ensures v >= a + s
  {
    OnLatticeSym(a, o, s);
    OnLatticeTrans(v, o, a, s);
    OnLatticeStep(v, a, s, -1);
    OnLatticeGap(v - s, a, s);
  }

  /** The lattice through `o + half` is the one through `o - half`. */
  lemma ShiftByStep(v: int, o: int, half: int)
    requires half >= 1 && OnLattice(v, o + half, 2 * half)
    ensures OnLattice(v, o - half, 2 * half)
  {
    OnLatticeStep(v, o + half, 2 * half, 1);
    assert OnLattice(v + 2 * half, o + half, 2 * half);
  }

  /** The three kinds of cell the generator writes. */
  datatype Kind = Seed | Diamond | Square

  /** The height a base seed gets: its clamped displacement. */
  function SeedValue(err: (int, int) -> real, x: int, y: int): real
  {
    Normalize(err(x, y))
  }

  /** The value a sweep of the given kind writes at (x, y). */
  function PassValue(kind: Kind, err: (int, int) -> real, g: Grid, x: int, y: int, half: int): real
  {
    match kind
    case Seed => SeedValue(err, x, y)
    case Diamond => DiamondValue(err, g, x, y, half)
    case Square => SquareValue(err, g, x, y, half)
  }

  /** Every cell of the pass's rectangle before (cx, cy) in row order holds
      the value the pass computes from the grid `g` it started from. */
  ghost predicate Done(kind: Kind, err: (int, int) -> real, g: Grid, r: Grid, step: int, half: int,
                       ox: int, ex: int, oy: int, ey: int, cx: int, cy: int)
    requires step > 0
  {
    forall k {:trigger k in r} :: LatticeCell(k, step, ox, ex, oy, ey) && (k.1 < cy || (k.1 == cy && k.0 < cx)) ==>
      k in r && r[k] == PassValue(kind, err, g, k.0, k.1, half)
  }

  /** Cells of `g` outside the rectangle's lattice keep their height. */
  ghost predicate KeptOutside(g: Grid, r: Grid, step: int, ox: int, ex: int, oy: int, ey: int)
    requires step > 0
  {
    forall k {:trigger k in r} :: k in g && !LatticeCell(k, step, ox, ex, oy, ey) ==> k in r && r[k] == g[k]
  }

  /** The only cells added to `g` are lattice points of the rectangle. */
  ghost predicate OnlyInside(g: Grid, r: Grid, step: int, ox: int, ex: int, oy: int, ey: int)
    requires step > 0
  {
    forall k {:trigger k in r} :: k in r ==> k in g || LatticeCell(k, step, ox, ex, oy, ey)
  }

  /** Writing the pass value at the next cell (x, y) advances the sweep by
      one lattice step along the row. */
  lemma DoneStep(kind: Kind, err: (int, int) -> real, g: Grid, r: Grid, step: int, half: int,
                 ox: int, ex: int, oy: int, ey: int, x: int, y: int)
    requires step > 0 && LatticeCell((x, y), step, ox, ex, oy, ey)
    requires Done(kind, err, g, r, step, half, ox, ex, oy, ey, x, y)
    requires KeptOutside(g, r, step, ox, ex, oy, ey) && OnlyInside(g, r, step, ox, ex, oy, ey)
    ensures var r' := r[(x, y) := PassValue(kind, err, g, x, y, half)];
            Done(kind, err, g, r', step, half, ox, ex, oy, ey, x + step, y) &&
            KeptOutside(g, r', step, ox, ex, oy, ey) && OnlyInside(g, r', step, ox, ex, oy, ey)
  {
    var r' := r[(x, y) := PassValue(kind, err, g, x, y, half)];
    forall k | LatticeCell(k, step, ox, ex, oy, ey) && (k.1 < y || (k.1 == y && k.0 < x + step))
      ensures k in r' && r'[k] == PassValue(kind, err, g, k.0, k.1, half)
    {
      if k.1 == y && x < k.0 {
        NoPointBetween(k.0, x, ox, step);
      }
    }
  }

  /** Once a row is finished the sweep moves on to the next lattice row. */
  lemma DoneRow(kind: Kind, err: (int, int) -> real, g: Grid, r: Grid, step: int, half: int,
                ox: int, ex: int, oy: int, ey: int, x: int, y: int)
    requires step > 0 && ex < x && oy <= y && OnLattice(y, oy, step)
    requires Done(kind, err, g, r, step, half, ox, ex, oy, ey, x, y)
    ensures Done(kind, err, g, r, step, half, ox, ex, oy, ey, ox, y + step)
  {
    forall k | LatticeCell(k, step, ox, ex, oy, ey) && (k.1 < y + step || (k.1 == y + step && k.0 < ox))
      ensures k in r && r[k] == PassValue(kind, err, g, k.0, k.1, half)
    {
      if y < k.1 {
        NoPointBetween(k.1, y, oy, step);
      }
    }
  }

  /** A diamond generated in the current grid `r` gets the pass value
      computed from the grid `g` the pass started from, as long as its
      corners still read as in `g`. */
  lemma DiamondWrite(err: (int, int) -> real, g: Grid, r: Grid, x: int, y: int, half: int)
    requires DiamondReady(r, x, y, half)
    requires DiamondMean(r, x, y, half) == DiamondMean(g, x, y, half)
    ensures GenerateDiamond(r, x, y, half, err(x, y)) ==
            r[(x, y) := PassValue(Diamond, err, g, x, y, half)]
  {
  }

  /** The square counterpart of `DiamondWrite`. */
  lemma SquareWrite(err: (int, int) -> real, g: Grid, r: Grid, x: int, y: int, half: int)
    requires SquareReady(r, x, y, half)
    requires SquareMean(r, x, y, half) == SquareMean(g, x, y, half)
    ensures GenerateSquare(r, x, y, half, err(x, y)) ==
            r[(x, y) := PassValue(Square, err, g, x, y, half)]
  {
  }

  /** Writes the base seeds: every lattice point (x, y) of spacing `step`
      with x in sx, sx + step, ... <= ex and y in sy, sy + step, ... <= ey
      gets its clamped displacement. Nothing is read. */
  method SeedPass(err: (int, int) -> real, g: Grid, step: int,
                  sx: int, ex: int, sy: int, ey: int) returns (r: Grid)
    requires step > 0
    ensures forall k {:trigger LatticeCell(k, step, sx, ex, sy, ey)} :: LatticeCell(k, step, sx, ex, sy, ey) ==>
              k in r && r[k] == SeedValue(err, k.0, k.1)
    ensures KeptOutside(g, r, step, sx, ex, sy, ey)
    ensures OnlyInside(g, r, step, sx, ex, sy, ey)
  {
    r := g;
    var y := sy;
    while y <= ey
      invariant sy <= y && OnLattice(y, sy, step)
      invariant Done(Seed, err, g, r, step, 0, sx, ex, sy, ey, sx, y)
      invariant KeptOutside(g, r, step, sx, ex, sy, ey) && OnlyInside(g, r, step, sx, ex, sy, ey)
      decreases ey - y
    {
      r := SeedRow(err, g, r, step, sx, ex, sy, ey, y);
      OnLatticeStep(y, sy, step, 1);
      y := y + step;
    }
    forall k | LatticeCell(k, step, sx, ex, sy, ey)
      ensures k in r && r[k] == SeedValue(err, k.0, k.1)
    {
    }
  }

  /** The inner loop of the seed pass: the seeds of row `y`. */
  method SeedRow(err: (int, int) -> real, g: Grid, r0: Grid, step: int,
                 sx: int, ex: int, sy: int, ey: int, y: int) returns (r: Grid)
    requires step > 0
    requires sy <= y <= ey && OnLattice(y, sy, step)
    requires Done(Seed, err, g, r0, step, 0, sx, ex, sy, ey, sx, y)
    requires KeptOutside(g, r0, step, sx, ex, sy, ey) && OnlyInside(g, r0, step, sx, ex, sy, ey)
    ensures Done(Seed, err, g, r, step, 0, sx, ex, sy, ey, sx, y + step)
    ensures KeptOutside(g, r, step, sx, ex, sy, ey) && OnlyInside(g, r, step, sx, ex, sy, ey)
  {
    r := r0;
    var x := sx;
    while x <= ex
      invariant sx <= x && OnLattice(x, sx, step)
      invariant Done(Seed, err, g, r, step, 0, sx, ex, sy, ey, x, y)
      invariant KeptOutside(g, r, step, sx, ex, sy, ey) && OnlyInside(g, r, step, sx, ex, sy, ey)
      decreases ex - x
    {
      DoneStep(Seed, err, g, r, step, 0, sx, ex, sy, ey, x, y);
      r := SetHeight(r, x, y, Normalize(err(x, y)));
      OnLatticeStep(x, sx, step, 1);
      x := x + step;
    }
    DoneRow(Seed, err, g, r, step, 0, sx, ex, sy, ey, x, y);
  }

  /** Writes every diamond centre (x, y), x in sx, sx + step, ... <= ex and
      y in sy, sy + step, ... <= ey, reading the four corners of the
      surrounding square of side `step`. */
  method DiamondPass(err: (int, int) -> real, g: Grid, step: int, half: int,
                     sx: int, ex: int, sy: int, ey: int) returns (r: Grid)
    requires half >= 1 && step == 2 * half
    requires Covers(g, step, sx - half, ex + half, sy - half, ey + half)
    ensures forall k {:trigger LatticeCell(k, step, sx, ex, sy, ey)} :: LatticeCell(k, step, sx, ex, sy, ey) ==>
              k in r && r[k] == DiamondValue(err, g, k.0, k.1, half)
    ensures KeptOutside(g, r, step, sx, ex, sy, ey)
    ensures OnlyInside(g, r, step, sx, ex, sy, ey)
  {
    r := g;
    var y := sy;
    while y <= ey
      invariant sy <= y && OnLattice(y, sy, step)
      invariant Done(Diamond, err, g, r, step, half, sx, ex, sy, ey, sx, y)
      invariant KeptOutside(g, r, step, sx, ex, sy, ey) && OnlyInside(g, r, step, sx, ex, sy, ey)
      decreases ey - y
    {
      r := DiamondRow(err, g, r, step, half, sx, ex, sy, ey, y);
      OnLatticeStep(y, sy, step, 1);
      y := y + step;
    }
    forall k | LatticeCell(k, step, sx, ex, sy, ey)
      ensures k in r && r[k] == DiamondValue(err, g, k.0, k.1, half)
    {
    }
  }

  /** The inner loop of the diamond pass: the centres of row `y`. */
  method DiamondRow(err: (int, int) -> real, g: Grid, r0: Grid, step: int, half: int,
                    sx: int, ex: int, sy: int, ey: int, y: int) returns (r: Grid)
    requires half >= 1 && step == 2 * half
    requires Covers(g, step, sx - half, ex + half, sy - half, ey + half)
    requires sy <= y <= ey && OnLattice(y, sy, step)
    requires Done(Diamond, err, g, r0, step, half, sx, ex, sy, ey, sx, y)
    requires KeptOutside(g, r0, step, sx, ex, sy, ey) && OnlyInside(g, r0, step, sx, ex, sy, ey)
    ensures Done(Diamond, err, g, r, step, half, sx, ex, sy, ey, sx, y + step)
    ensures KeptOutside(g, r, step, sx, ex, sy, ey) && OnlyInside(g, r, step, sx, ex, sy, ey)
  {
    r := r0;
    var x := sx;
    while x <= ex
      invariant sx <= x && OnLattice(x, sx, step)
      invariant Done(Diamond, err, g, r, step, half, sx, ex, sy, ey, x, y)
      invariant KeptOutside(g, r, step, sx, ex, sy, ey) && OnlyInside(g, r, step, sx, ex, sy, ey)
      decreases ex - x
    {
      DiamondAdvance(err, g, r, step, half, sx, ex, sy, ey, x, y);
      r := GenerateDiamond(r, x, y, half, err(x, y));
      OnLatticeStep(x, sx, step, 1);
      x := x + step;
    }
    DoneRow(Diamond, err, g, r, step, half, sx, ex, sy, ey, x, y);
  }

  /** A point that some earlier lattice guarantees written, and that lies
      outside the lattice a pass writes, still holds its old height. */
  lemma PointKept(g: Grid, r: Grid, step: int, p: (int, int),
                  ax: int, bx: int, ay: int, bz: int,
                  wx: int, vx: int, wy: int, vz: int)
    requires step > 0
    requires Covers(g, step, ax, bx, ay, bz) && LatticeCell(p, step, ax, bx, ay, bz)
    requires !LatticeCell(p, step, wx, vx, wy, vz) && KeptOutside(g, r, step, wx, vx, wy, vz)
    ensures p in g && p in r && r[p] == g[p]
  {
  }

  /** One iteration of the diamond row: the centre (x, y) can be generated,
      and generating it advances the sweep. */
  lemma DiamondAdvance(err: (int, int) -> real, g: Grid, r: Grid, step: int, half: int,
                       sx: int, ex: int, sy: int, ey: int, x: int, y: int)
    requires half >= 1 && step == 2 * half
    requires Covers(g, step, sx - half, ex + half, sy - half, ey + half)
    requires LatticeCell((x, y), step, sx, ex, sy, ey)
    requires Done(Diamond, err, g, r, step, half, sx, ex, sy, ey, x, y)
    requires KeptOutside(g, r, step, sx, ex, sy, ey) && OnlyInside(g, r, step, sx, ex, sy, ey)
    ensures DiamondReady(r, x, y, half)
    ensures var r' := GenerateDiamond(r, x, y, half, err(x, y));
            Done(Diamond, err, g, r', step, half, sx, ex, sy, ey, x + step, y) &&
            KeptOutside(g, r', step, sx, ex, sy, ey) && OnlyInside(g, r', step, sx, ex, sy, ey)
  {
    DiamondCornersKept(g, r, step, half, sx, ex, sy, ey, x, y);
    DoneStep(Diamond, err, g, r, step, half, sx, ex, sy, ey, x, y);
    DiamondWrite(err, g, r, x, y, half);
  }

  /** Before the diamond at (x, y) is written, its corners are old lattice
      points: written, and not yet touched by this pass. */
  lemma DiamondCornersKept(g: Grid, r: Grid, step: int, half: int,
                           sx: int, ex: int, sy: int, ey: int, x: int, y: int)
    requires half >= 1 && step == 2 * half
    requires Covers(g, step, sx - half, ex + half, sy - half, ey + half)
    requires LatticeCell((x, y), step, sx, ex, sy, ey)
    requires KeptOutside(g, r, step, sx, ex, sy, ey)
    ensures DiamondReady(r, x, y, half)
    ensures DiamondMean(r, x, y, half) == DiamondMean(g, x, y, half)
  {
    AxisNeighbours(x, sx, half);
    AxisNeighbours(y, sy, half);
    PointKept(g, r, step, (x - half, y - half), sx - half, ex + half, sy - half, ey + half, sx, ex, sy, ey);
    PointKept(g, r, step, (x + half, y - half), sx - half, ex + half, sy - half, ey + half, sx, ex, sy, ey);
    PointKept(g, r, step, (x - half, y + half), sx - half, ex + half, sy - half, ey + half, sx, ex, sy, ey);
    PointKept(g, r, step, (x + half, y + half), sx - half, ex + half, sy - half, ey + half, sx, ex, sy, ey);
  }

  /** The reads of the square mid-point (x + half, y) of the first square
      family: two diamond centres of this refinement and two old lattice
      points, none of them written by this family. */
  lemma SquareHReadsKept(g: Grid, r: Grid, step: int, half: int,
                         sx: int, ex: int, sy: int, ey: int, x: int, y: int)
    requires half >= 1 && step == 2 * half && OnLattice(ex, sx, step)
    requires Covers(g, step, sx - half, ex + half, sy - half, ey + half)
    requires Covers(g, step, sx, ex, sy, ey)
    requires sx <= x < ex && OnLattice(x, sx, step) && sy <= y <= ey && OnLattice(y, sy, step)
    requires KeptOutside(g, r, step, sx + half, ex - half, sy, ey)
    ensures SquareReady(r, x + half, y, half)
    ensures SquareMean(r, x + half, y, half) == SquareMean(g, x + half, y, half)
  {
    NoPointBetween(ex, x, sx, step);
    OnLatticeStep(x, sx, step, 1);
    OnLatticeDisjoint(x, sx, half);
    OnLatticeDisjoint(x + step, sx, half);
    AxisNeighbours(x + half, sx + half, half);
    AxisNeighbours(y, sy, half);
    PointKept(g, r, step, (x, y), sx, ex, sy, ey, sx + half, ex - half, sy, ey);
    PointKept(g, r, step, (x + step, y), sx, ex, sy, ey, sx + half, ex - half, sy, ey);
    PointKept(g, r, step, (x + half, y - half), sx - half, ex + half, sy - half, ey + half,
              sx + half, ex - half, sy, ey);
    PointKept(g, r, step, (x + half, y + half), sx - half, ex + half, sy - half, ey + half,
              sx + half, ex - half, sy, ey);
  }

  /** One iteration of the first square family's row. */
  lemma SquareHAdvance(err: (int, int) -> real, g: Grid, r: Grid, step: int, half: int,
                       sx: int, ex: int, sy: int, ey: int, x: int, y: int)
    requires half >= 1 && step == 2 * half && OnLattice(ex, sx, step)
    requires Covers(g, step, sx - half, ex + half, sy - half, ey + half)
    requires Covers(g, step, sx, ex, sy, ey)
    requires sx <= x < ex && OnLattice(x, sx, step) && sy <= y <= ey && OnLattice(y, sy, step)
    requires Done(Square, err, g, r, step, half, sx + half, ex - half, sy, ey, x + half, y)
    requires KeptOutside(g, r, step, sx + half, ex - half, sy, ey)
    requires OnlyInside(g, r, step, sx + half, ex - half, sy, ey)
    ensures SquareReady(r, x + half, y, half)
    ensures var r' := GenerateSquare(r, x + half, y, half, err(x + half, y));
            Done(Square, err, g, r', step, half, sx + half, ex - half, sy, ey, x + step + half, y) &&
            KeptOutside(g, r', step, sx + half, ex - half, sy, ey) &&
            OnlyInside(g, r', step, sx + half, ex - half, sy, ey)
  {
    SquareHReadsKept(g, r, step, half, sx, ex, sy, ey, x, y);
    NoPointBetween(ex, x, sx, step);
    assert LatticeCell((x + half, y), step, sx + half, ex - half, sy, ey);
    DoneStep(Square, err, g, r, step, half, sx + half, ex - half, sy, ey, x + half, y);
    SquareWrite(err, g, r, x + half, y, half);
  }

  /** Writes the square mid-points (x + half, y) for x in sx, sx + step, ... < ex
      and y in sy, sy + step, ... <= ey: the mid-points of the horizontal
      edges, each read from the two diamond centres beside it and the two
      lattice points above and below. */
  method SquareHPass(err: (int, int) -> real, g: Grid, step: int, half: int,
                     sx: int, ex: int, sy: int, ey: int) returns (r: Grid)
    requires half >= 1 && step == 2 * half && OnLattice(ex, sx, step)
    requires Covers(g, step, sx - half, ex + half, sy - half, ey + half)
    requires Covers(g, step, sx, ex, sy, ey)
    ensures forall k {:trigger LatticeCell(k, step, sx + half, ex - half, sy, ey)} :: LatticeCell(k, step, sx + half, ex - half, sy, ey) ==>
              k in r && r[k] == SquareValue(err, g, k.0, k.1, half)
    ensures KeptOutside(g, r, step, sx + half, ex - half, sy, ey)
    ensures OnlyInside(g, r, step, sx + half, ex - half, sy, ey)
  {
    r := g;
    var y := sy;
    while y <= ey
      invariant sy <= y && OnLattice(y, sy, step)
      invariant Done(Square, err, g, r, step, half, sx + half, ex - half, sy, ey, sx + half, y)
      invariant KeptOutside(g, r, step, sx + half, ex - half, sy, ey)
      invariant OnlyInside(g, r, step, sx + half, ex - half, sy, ey)
      decreases ey - y
    {
      r := SquareHRow(err, g, r, step, half, sx, ex, sy, ey, y);
      OnLatticeStep(y, sy, step, 1);
      y := y + step;
    }
    forall k | LatticeCell(k, step, sx + half, ex - half, sy, ey)
      ensures k in r && r[k] == SquareValue(err, g, k.0, k.1, half)
    {
    }
  }

  /** The inner loop of the first square family: row `y`. */
  method SquareHRow(err: (int, int) -> real, g: Grid, r0: Grid, step: int, half: int,
                    sx: int, ex: int, sy: int, ey: int, y: int) returns (r: Grid)
    requires half >= 1 && step == 2 * half && OnLattice(ex, sx, step)
    requires Covers(g, step, sx - half, ex + half, sy - half, ey + half)
    requires Covers(g, step, sx, ex, sy, ey)
    requires sy <= y <= ey && OnLattice(y, sy, step)
    requires Done(Square, err, g, r0, step, half, sx + half, ex - half, sy, ey, sx + half, y)
    requires KeptOutside(g, r0, step, sx + half, ex - half, sy, ey)
    requires OnlyInside(g, r0, step, sx + half, ex - half, sy, ey)
    ensures Done(Square, err, g, r, step, half, sx + half, ex - half, sy, ey, sx + half, y + step)
    ensures KeptOutside(g, r, step, sx + half, ex - half, sy, ey)
    ensures OnlyInside(g, r, step, sx + half, ex - half, sy, ey)
  {
    r := r0;
    var x := sx;
    while x < ex
      invariant sx <= x && OnLattice(x, sx, step)
      invariant Done(Square, err, g, r, step, half, sx + half, ex - half, sy, ey, x + half, y)
      invariant KeptOutside(g, r, step, sx + half, ex - half, sy, ey)
      invariant OnlyInside(g, r, step, sx + half, ex - half, sy, ey)
      decreases ex - x
    {
      SquareHAdvance(err, g, r, step, half, sx, ex, sy, ey, x, y);
      r := GenerateSquare(r, x + half, y, half, err(x + half, y));
      OnLatticeStep(x, sx, step, 1);
      x := x + step;
    }
    DoneRow(Square, err, g, r, step, half, sx + half, ex - half, sy, ey, x + half, y);
  }

  /** The reads of the square mid-point (x, y + half) of the second square
      family: two old lattice points beside it and two diamond centres above
      and below, none of them written by this family. */
  lemma SquareVReadsKept(g: Grid, r: Grid, step: int, half: int,
                         sx: int, ex: int, sy: int, ey: int, x: int, y: int)
    requires half >= 1 && step == 2 * half && OnLattice(ey, sy, step)
    requires Covers(g, step, sx - half, ex + half, sy - half, ey + half)
    requires Covers(g, step, sx, ex, sy, ey)
    requires sx <= x <= ex && OnLattice(x, sx, step) && sy <= y < ey && OnLattice(y, sy, step)
    requires KeptOutside(g, r, step, sx, ex, sy + half, ey - half)
    ensures SquareReady(r, x, y + half, half)
    ensures SquareMean(r, x, y + half, half) == SquareMean(g, x, y + half, half)
  {
    NoPointBetween(ey, y, sy, step);
    OnLatticeStep(y, sy, step, 1);
    OnLatticeDisjoint(y, sy, half);
    OnLatticeDisjoint(y + step, sy, half);
    AxisNeighbours(y + half, sy + half, half);
    AxisNeighbours(x, sx, half);
    PointKept(g, r, step, (x, y), sx, ex, sy, ey, sx, ex, sy + half, ey - half);
    PointKept(g, r, step, (x, y + step), sx, ex, sy, ey, sx, ex, sy + half, ey - half);
    PointKept(g, r, step, (x - half, y + half), sx - half, ex + half, sy - half, ey + half,
              sx, ex, sy + half, ey - half);
    PointKept(g, r, step, (x + half, y + half), sx - half, ex + half, sy - half, ey + half,
              sx, ex, sy + half, ey - half);
  }

  /** One iteration of the second square family's row. */
  lemma SquareVAdvance(err: (int, int) -> real, g: Grid, r: Grid, step: int, half: int,
                       sx: int, ex: int, sy: int, ey: int, x: int, y: int)
    requires half >= 1 && step == 2 * half && OnLattice(ey, sy, step)
    requires Covers(g, step, sx - half, ex + half, sy - half, ey + half)
    requires Covers(g, step, sx, ex, sy, ey)
    requires sx <= x <= ex && OnLattice(x, sx, step) && sy <= y < ey && OnLattice(y, sy, step)
    requires Done(Square, err, g, r, step, half, sx, ex, sy + half, ey - half, x, y + half)
    requires KeptOutside(g, r, step, sx, ex, sy + half, ey - half)
    requires OnlyInside(g, r, step, sx, ex, sy + half, ey - half)
    ensures SquareReady(r, x, y + half, half)
    ensures var r' := GenerateSquare(r, x, y + half, half, err(x, y + half));
            Done(Square, err, g, r', step, half, sx, ex, sy + half, ey - half, x + step, y + half) &&
            KeptOutside(g, r', step, sx, ex, sy + half, ey - half) &&
            OnlyInside(g, r', step, sx, ex, sy + half, ey - half)
  {
    SquareVReadsKept(g, r, step, half, sx, ex, sy, ey, x, y);
    NoPointBetween(ey, y, sy, step);
    assert LatticeCell((x, y + half), step, sx, ex, sy + half, ey - half);
    DoneStep(Square, err, g, r, step, half, sx, ex, sy + half, ey - half, x, y + half);
    SquareWrite(err, g, r, x, y + half, half);
  }

  /** Writes the square mid-points (x, y + half) for x in sx, sx + step, ... <= ex
      and y in sy, sy + step, ... < ey: the mid-points of the vertical edges. */
  method SquareVPass(err: (int, int) -> real, g: Grid, step: int, half: int,
                     sx: int, ex: int, sy: int, ey: int) returns (r: Grid)
    requires half >= 1 && step == 2 * half && OnLattice(ey, sy, step)
    requires Covers(g, step, sx - half, ex + half, sy - half, ey + half)
    requires Covers(g, step, sx, ex, sy, ey)
    ensures forall k {:trigger LatticeCell(k, step, sx, ex, sy + half, ey - half)} :: LatticeCell(k, step, sx, ex, sy + half, ey - half) ==>
              k in r && r[k] == SquareValue(err, g, k.0, k.1, half)
    ensures KeptOutside(g, r, step, sx, ex, sy + half, ey - half)
    ensures OnlyInside(g, r, step, sx, ex, sy + half, ey - half)
  {
    r := g;
    var y := sy;
    while y < ey
      invariant sy <= y && OnLattice(y, sy, step)
      invariant Done(Square, err, g, r, step, half, sx, ex, sy + half, ey - half, sx, y + half)
      invariant KeptOutside(g, r, step, sx, ex, sy + half, ey - half)
      invariant OnlyInside(g, r, step, sx, ex, sy + half, ey - half)
      decreases ey - y
    {
      r := SquareVRow(err, g, r, step, half, sx, ex, sy, ey, y);
      OnLatticeStep(y, sy, step, 1);
      y := y + step;
    }
    forall k | LatticeCell(k, step, sx, ex, sy + half, ey - half)
      ensures k in r && r[k] == SquareValue(err, g, k.0, k.1, half)
    {
    }
  }

  /** The inner loop of the second square family: row `y`. */
  method SquareVRow(err: (int, int) -> real, g: Grid, r0: Grid, step: int, half: int,
                    sx: int, ex: int, sy: int, ey: int, y: int) returns (r: Grid)
    requires half >= 1 && step == 2 * half && OnLattice(ey, sy, step)
    requires Covers(g, step, sx - half, ex + half, sy - half, ey + half)
    requires Covers(g, step, sx, ex, sy, ey)
    requires sy <= y < ey && OnLattice(y, sy, step)
    requires Done(Square, err, g, r0, step, half, sx, ex, sy + half, ey - half, sx, y + half)
    requires KeptOutside(g, r0, step, sx, ex, sy + half, ey - half)
    requires OnlyInside(g, r0, step, sx, ex, sy + half, ey - half)
    ensures Done(Square, err, g, r, step, half, sx, ex, sy + half, ey - half, sx, y + half + step)
    ensures KeptOutside(g, r, step, sx, ex, sy + half, ey - half)
    ensures OnlyInside(g, r, step, sx, ex, sy + half, ey - half)
  {
    r := r0;
    var x := sx;
    while x <= ex
      invariant sx <= x && OnLattice(x, sx, step)
      invariant Done(Square, err, g, r, step, half, sx, ex, sy + half, ey - half, x, y + half)
      invariant KeptOutside(g, r, step, sx, ex, sy + half, ey - half)
      invariant OnlyInside(g, r, step, sx, ex, sy + half, ey - half)
      decreases ex - x
    {
      SquareVAdvance(err, g, r, step, half, sx, ex, sy, ey, x, y);
      r := GenerateSquare(r, x, y + half, half, err(x, y + half));
      OnLatticeStep(x, sx, step, 1);
      x := x + step;
    }
    DoneRow(Square, err, g, r, step, half, sx, ex, sy + half, ey - half, x, y + half);
  }

  /** A sweep that wrote its lattice and kept every other cell only adds cells. */
  lemma PassGrows(kind: Kind, err: (int, int) -> real, g: Grid, r: Grid, step: int, half: int,
                  ox: int, ex: int, oy: int, ey: int)
    requires step > 0
    requires forall k {:trigger LatticeCell(k, step, ox, ex, oy, ey)} :: LatticeCell(k, step, ox, ex, oy, ey) ==>
               k in r && r[k] == PassValue(kind, err, g, k.0, k.1, half)
    requires KeptOutside(g, r, step, ox, ex, oy, ey)
    ensures g.Keys <= r.Keys
  {
    forall k | k in g
      ensures k in r
    {
      if !LatticeCell(k, step, ox, ex, oy, ey) {
        assert k in r;
      }
    }
  }

  /** Every cell a sweep writes is clamped, so it only adds heights in [0, 1]. */
  lemma PassInUnit(kind: Kind, err: (int, int) -> real, g: Grid, r: Grid, step: int, half: int,
                   ox: int, ex: int, oy: int, ey: int)
    requires step > 0
    requires forall k {:trigger LatticeCell(k, step, ox, ex, oy, ey)} :: LatticeCell(k, step, ox, ex, oy, ey) ==>
               k in r && r[k] == PassValue(kind, err, g, k.0, k.1, half)
    requires KeptOutside(g, r, step, ox, ex, oy, ey) && OnlyInside(g, r, step, ox, ex, oy, ey)
    ensures WrittenInUnit(g, r)
  {
    forall k | k in r
      ensures (k in g && r[k] == g[k]) || (0.0 <= r[k] <= 1.0)
    {
      if LatticeCell(k, step, ox, ex, oy, ey) {
        assert r[k] == PassValue(kind, err, g, k.0, k.1, half);
      }
    }
  }

  /** With no displacement, a sweep over a flat grid leaves it flat: every
      mean of zeros is zero. */
  lemma PassFlat(kind: Kind, err: (int, int) -> real, g: Grid, r: Grid, step: int, half: int,
                 ox: int, ex: int, oy: int, ey: int)
    requires step > 0
    requires forall x: int, y: int :: err(x, y) == 0.0
    requires AllZero(g)
    requires forall k {:trigger LatticeCell(k, step, ox, ex, oy, ey)} :: LatticeCell(k, step, ox, ex, oy, ey) ==>
               k in r && r[k] == PassValue(kind, err, g, k.0, k.1, half)
    requires KeptOutside(g, r, step, ox, ex, oy, ey) && OnlyInside(g, r, step, ox, ex, oy, ey)
    ensures AllZero(r)
  {
    forall k | k in r
      ensures r[k] == 0.0
    {
      if LatticeCell(k, step, ox, ex, oy, ey) {
        assert r[k] == PassValue(kind, err, g, k.0, k.1, half);
        assert err(k.0, k.1) == 0.0;
      }
    }
  }

  /** The last mid-point before a lattice end `e` is `e - h`. */
  lemma LastMidpoint(e: int, s: int, h: int)
    requires h >= 1 && OnLattice(e, s, 2 * h)
    ensures OnLattice(e - h, s + h, 2 * h)
  {
    OnLatticeStep(e, s, 2 * h, -1);
    assert (e - h) - (s + h) == (e + -1 * (2 * h)) - s;
  }

  /** Along one axis, a point of the refined lattice (spacing h) in [s, e] is
      either a point of the current lattice (spacing 2h through `s`) or lies
      strictly inside between two of them, on the lattice through `s - h`. */
  lemma AxisRefine(v: int, s: int, e: int, h: int)
    requires h >= 1 && s <= v <= e && OnLattice(v, s, h) && OnLattice(e, s, 2 * h)
    ensures OnLattice(v, s, 2 * h) ||
            (s + h <= v <= e - h && OnLattice(v, s + h, 2 * h) && OnLattice(v, s - h, 2 * h))
  {
    OnLatticeSplit(v, s, h);
    if !OnLattice(v, s, 2 * h) {
      OnLatticeGap(v, s + h, 2 * h);
      LastMidpoint(e, s, h);
      OnLatticeSym(e - h, s + h, 2 * h);
      OnLatticeTrans(v, s + h, e - h, 2 * h);
      OnLatticeGapBelow(v, e - h, 2 * h);
      ShiftByStep(v, s, h);
    }
  }

  /** After the diamonds and both square families the rectangle is covered
      at half the spacing: every point of the finer lattice is either an old
      lattice point, a diamond centre or a square mid-point. */
  lemma RefineCovers(g: Grid, step: int, half: int, sx: int, ex: int, sy: int, ey: int)
    requires half >= 1 && step == 2 * half
    requires OnLattice(ex, sx, step) && OnLattice(ey, sy, step)
    requires Covers(g, step, sx - half, ex + half, sy - half, ey + half)
    requires Covers(g, step, sx, ex, sy, ey)
    requires Covers(g, step, sx + half, ex - half, sy, ey)
    requires Covers(g, step, sx, ex, sy + half, ey - half)
    ensures Covers(g, half, sx, ex, sy, ey)
  {
    forall k | LatticeCell(k, half, sx, ex, sy, ey)
      ensures k in g
    {
      AxisRefine(k.0, sx, ex, half);
      AxisRefine(k.1, sy, ey, half);
      if OnLattice(k.0, sx, step) && OnLattice(k.1, sy, step) {
        assert LatticeCell(k, step, sx, ex, sy, ey);
      } else if OnLattice(k.1, sy, step) {
        assert LatticeCell(k, step, sx + half, ex - half, sy, ey);
      } else if OnLattice(k.0, sx, step) {
        assert LatticeCell(k, step, sx, ex, sy + half, ey - half);
      } else {
        assert LatticeCell(k, step, sx - half, ex + half, sy - half, ey + half);
      }
    }
  }

  /** Cell `k` is one that a refinement of the rectangle [sx, ex] x [sy, ey]
      writes: a diamond centre, or a mid-point of either square family. */
  predicate Refined(k: (int, int), step: int, half: int, sx: int, ex: int, sy: int, ey: int)
    requires step > 0
  {
    LatticeCell(k, step, sx, ex, sy, ey) ||
    LatticeCell(k, step, sx + half, ex - half, sy, ey) ||
    LatticeCell(k, step, sx, ex, sy + half, ey - half)
  }

  /** A cell a sweep does not write keeps its height. */
  lemma KeptThrough(a: Grid, b: Grid, p: (int, int), step: int,
                    ox: int, ex: int, oy: int, ey: int)
    requires step > 0 && p in a
    requires !LatticeCell(p, step, ox, ex, oy, ey) && KeptOutside(a, b, step, ox, ex, oy, ey)
    ensures p in b && b[p] == a[p]
  {
  }

  /** The corners of the diamond centre (x, y) are off every lattice
      through (sx, sy) or (sx + half, sy) or (sx, sy + half), so a sweep of
      one of those lattices keeps them and the centre's mean. */
  lemma CornersKept(a: Grid, b: Grid, step: int, half: int, x: int, y: int,
                    sx: int, sy: int, ox: int, ex: int, oy: int, ey: int)
    requires half >= 1 && step == 2 * half
    requires OnLattice(x, sx, step) && OnLattice(y, sy, step)
    requires (ox == sx || ox == sx + half) && (oy == sy || oy == sy + half)
    requires ox == sx || oy == sy
    requires DiamondReady(a, x, y, half) && KeptOutside(a, b, step, ox, ex, oy, ey)
    ensures DiamondReady(b, x, y, half)
    ensures DiamondMean(b, x, y, half) == DiamondMean(a, x, y, half)
  {
    AxisNeighbours(x, sx, half);
    AxisNeighbours(y, sy, half);
    KeptThrough(a, b, (x - half, y - half), step, ox, ex, oy, ey);
    KeptThrough(a, b, (x + half, y - half), step, ox, ex, oy, ey);
    KeptThrough(a, b, (x - half, y + half), step, ox, ex, oy, ey);
    KeptThrough(a, b, (x + half, y + half), step, ox, ex, oy, ey);
  }

  /** A diamond centre written by the diamond sweep keeps its height through
      both square families, and so do its corners: after the whole
      refinement it holds the clamped mean of its corners as they finally
      stand, plus its displacement. */
  lemma CentreFinal(err: (int, int) -> real, g: Grid, g1: Grid, g2: Grid, r: Grid,
                    step: int, half: int, sx: int, ex: int, sy: int, ey: int, k: (int, int))
    requires half >= 1 && step == 2 * half
    requires Covers(g, step, sx - half, ex + half, sy - half, ey + half)
    requires LatticeCell(k, step, sx, ex, sy, ey)
    requires k in g1 && g1[k] == DiamondValue(err, g, k.0, k.1, half)
    requires KeptOutside(g, g1, step, sx, ex, sy, ey)
    requires KeptOutside(g1, g2, step, sx + half, ex - half, sy, ey)
    requires KeptOutside(g2, r, step, sx, ex, sy + half, ey - half)
    ensures k in r && r[k] == DiamondValue(err, r, k.0, k.1, half)
  {
    var x := k.0;
    var y := k.1;
    DiamondCornersKept(g, g1, step, half, sx, ex, sy, ey, x, y);
    CornersKept(g1, g2, step, half, x, y, sx, sy, sx + half, ex - half, sy, ey);
    CornersKept(g2, r, step, half, x, y, sx, sy, sx, ex, sy + half, ey - half);
    OnLatticeDisjoint(x, sx, half);
    OnLatticeDisjoint(y, sy, half);
    KeptThrough(g1, g2, k, step, sx + half, ex - half, sy, ey);
    KeptThrough(g2, r, k, step, sx, ex, sy + half, ey - half);
  }

  /** A mid-point of the first square family keeps its height through the
      second family, and so do the four cells it read: after the whole
      refinement it holds the clamped mean of its axis neighbours as they
      finally stand, plus its displacement. */
  lemma RowMidFinal(err: (int, int) -> real, g1: Grid, g2: Grid, r: Grid,
                    step: int, half: int, sx: int, ex: int, sy: int, ey: int, k: (int, int))
    requires half >= 1 && step == 2 * half && OnLattice(ex, sx, step)
    requires Covers(g1, step, sx - half, ex + half, sy - half, ey + half)
    requires Covers(g1, step, sx, ex, sy, ey)
    requires LatticeCell(k, step, sx + half, ex - half, sy, ey)
    requires k in g2 && g2[k] == SquareValue(err, g1, k.0, k.1, half)
    requires KeptOutside(g1, g2, step, sx + half, ex - half, sy, ey)
    requires KeptOutside(g2, r, step, sx, ex, sy + half, ey - half)
    ensures k in r && r[k] == SquareValue(err, r, k.0, k.1, half)
  {
    var x := k.0 - half;
    var y := k.1;
    assert OnLattice(x, sx, step) by {
      assert x - sx == k.0 - (sx + half);
    }
    SquareHReadsKept(g1, g2, step, half, sx, ex, sy, ey, x, y);
    OnLatticeDisjoint(x, sx, half);
    OnLatticeDisjoint(y, sy, half);
    OnLatticeStep(x, sx, step, 1);
    OnLatticeDisjoint(x + step, sx, half);
    var ps := [k, (x, y), (x + step, y), (x + half, y - half), (x + half, y + half)];
    forall i | 0 <= i < |ps|
      ensures ps[i] in r && r[ps[i]] == g2[ps[i]]
    {
      KeptThrough(g2, r, ps[i], step, sx, ex, sy + half, ey - half);
    }
    assert SquareMean(r, k.0, k.1, half) == SquareMean(g2, k.0, k.1, half);
  }

  /** A mid-point of the second square family, written last, holds the
      clamped mean of its axis neighbours as they finally stand. */
  lemma ColMidFinal(err: (int, int) -> real, g2: Grid, r: Grid,
                    step: int, half: int, sx: int, ex: int, sy: int, ey: int, k: (int, int))
    requires half >= 1 && step == 2 * half && OnLattice(ey, sy, step)
    requires Covers(g2, step, sx - half, ex + half, sy - half, ey + half)
    requires Covers(g2, step, sx, ex, sy, ey)
    requires LatticeCell(k, step, sx, ex, sy + half, ey - half)
    requires k in r && r[k] == SquareValue(err, g2, k.0, k.1, half)
    requires KeptOutside(g2, r, step, sx, ex, sy + half, ey - half)
    ensures r[k] == SquareValue(err, r, k.0, k.1, half)
  {
    var x := k.0;
    var y := k.1 - half;
    assert OnLattice(y, sy, step) by {
      assert y - sy == k.1 - (sy + half);
    }
    SquareVReadsKept(g2, r, step, half, sx, ex, sy, ey, x, y);
  }

  /** `CentreFinal` for every centre of the rectangle. */
  lemma CentresFinal(err: (int, int) -> real, g: Grid, g1: Grid, g2: Grid, r: Grid,
                     step: int, half: int, sx: int, ex: int, sy: int, ey: int)
    requires half >= 1 && step == 2 * half
    requires Covers(g, step, sx - half, ex + half, sy - half, ey + half)
    requires forall k {:trigger LatticeCell(k, step, sx, ex, sy, ey)} :: LatticeCell(k, step, sx, ex, sy, ey) ==>
               k in g1 && g1[k] == DiamondValue(err, g, k.0, k.1, half)
    requires KeptOutside(g, g1, step, sx, ex, sy, ey)
    requires KeptOutside(g1, g2, step, sx + half, ex - half, sy, ey)
    requires KeptOutside(g2, r, step, sx, ex, sy + half, ey - half)
    ensures forall k {:trigger LatticeCell(k, step, sx, ex, sy, ey)} :: LatticeCell(k, step, sx, ex, sy, ey) ==>
              k in r && r[k] == DiamondValue(err, r, k.0, k.1, half)
  {
    forall k | LatticeCell(k, step, sx, ex, sy, ey)
      ensures k in r && r[k] == DiamondValue(err, r, k.0, k.1, half)
    {
      CentreFinal(err, g, g1, g2, r, step, half, sx, ex, sy, ey, k);
    }
  }

  /** `RowMidFinal` for every mid-point of the first square family. */
  lemma RowMidsFinal(err: (int, int) -> real, g1: Grid, g2: Grid, r: Grid,
                     step: int, half: int, sx: int, ex: int, sy: int, ey: int)
    requires half >= 1 && step == 2 * half && OnLattice(ex, sx, step)
    requires Covers(g1, step, sx - half, ex + half, sy - half, ey + half)
    requires Covers(g1, step, sx, ex, sy, ey)
    requires forall k {:trigger LatticeCell(k, step, sx + half, ex - half, sy, ey)} ::
               LatticeCell(k, step, sx + half, ex - half, sy, ey) ==>
               k in g2 && g2[k] == SquareValue(err, g1, k.0, k.1, half)
    requires KeptOutside(g1, g2, step, sx + half, ex - half, sy, ey)
    requires KeptOutside(g2, r, step, sx, ex, sy + half, ey - half)
    ensures forall k {:trigger LatticeCell(k, step, sx + half, ex - half, sy, ey)} ::
              LatticeCell(k, step, sx + half, ex - half, sy, ey) ==>
              k in r && r[k] == SquareValue(err, r, k.0, k.1, half)
  {
    forall k | LatticeCell(k, step, sx + half, ex - half, sy, ey)
      ensures k in r && r[k] == SquareValue(err, r, k.0, k.1, half)
    {
      RowMidFinal(err, g1, g2, r, step, half, sx, ex, sy, ey, k);
    }
  }

  /** `ColMidFinal` for every mid-point of the second square family. */
  lemma ColMidsFinal(err: (int, int) -> real, g2: Grid, r: Grid,
                     step: int, half: int, sx: int, ex: int, sy: int, ey: int)
    requires half >= 1 && step == 2 * half && OnLattice(ey, sy, step)
    requires Covers(g2, step, sx - half, ex + half, sy - half, ey + half)
    requires Covers(g2, step, sx, ex, sy, ey)
    requires forall k {:trigger LatticeCell(k, step, sx, ex, sy + half, ey - half)} ::
               LatticeCell(k, step, sx, ex, sy + half, ey - half) ==>
               k in r && r[k] == SquareValue(err, g2, k.0, k.1, half)
    requires KeptOutside(g2, r, step, sx, ex, sy + half, ey - half)
    ensures forall k {:trigger LatticeCell(k, step, sx, ex, sy + half, ey - half)} ::
              LatticeCell(k, step, sx, ex, sy + half, ey - half) ==>
              k in r && r[k] == SquareValue(err, r, k.0, k.1, half)
  {
    forall k | LatticeCell(k, step, sx, ex, sy + half, ey - half)
      ensures k in r && r[k] == SquareValue(err, r, k.0, k.1, half)
    {
      ColMidFinal(err, g2, r, step, half, sx, ex, sy, ey, k);
    }
  }

  /** Across the three sweeps of one refinement, a cell none of them writes
      keeps its height, and the only cells added are refined ones. */
  lemma RefineFrame(g: Grid, g1: Grid, g2: Grid, r: Grid,
                    step: int, half: int, sx: int, ex: int, sy: int, ey: int)
    requires step > 0
    requires KeptOutside(g, g1, step, sx, ex, sy, ey) && OnlyInside(g, g1, step, sx, ex, sy, ey)
    requires KeptOutside(g1, g2, step, sx + half, ex - half, sy, ey)
    requires OnlyInside(g1, g2, step, sx + half, ex - half, sy, ey)
    requires KeptOutside(g2, r, step, sx, ex, sy + half, ey - half)
    requires OnlyInside(g2, r, step, sx, ex, sy + half, ey - half)
    ensures forall k {:trigger k in r} :: k in g && !Refined(k, step, half, sx, ex, sy, ey) ==>
              k in r && r[k] == g[k]
    ensures forall k {:trigger k in r} :: k in r ==> k in g || Refined(k, step, half, sx, ex, sy, ey)
  {
    forall k | k in g && !Refined(k, step, half, sx, ex, sy, ey)
      ensures k in r && r[k] == g[k]
    {
      KeptThrough(g, g1, k, step, sx, ex, sy, ey);
      KeptThrough(g1, g2, k, step, sx + half, ex - half, sy, ey);
      KeptThrough(g2, r, k, step, sx, ex, sy + half, ey - half);
    }
    forall k | k in r
      ensures k in g || Refined(k, step, half, sx, ex, sy, ey)
    {
      if k !in g2 {
        assert LatticeCell(k, step, sx, ex, sy + half, ey - half);
      } else if k !in g1 {
        assert LatticeCell(k, step, sx + half, ex - half, sy, ey);
      }
    }
  }
}

=== FILE: region.dfy ===
/**
 The active region of the refinement loop (terrain.js:61-85), one axis at a
 time. Each pass either re-centres the region on the requested window, once
 the step is no larger than the window, or shrinks it by half a step on each
 side. At every loop head the region along an axis is in one of two shapes,
 and either shape keeps the window inside it.
 */
module Region {
  import opened Lattice
  import opened Params

  /** Two multiples of `s` lie on the same lattice of spacing `s`. */
  lemma MultiplesAligned(a: int, b: int, s: int)
    requires s > 0 && a % s == 0 && b % s == 0
    ensures OnLattice(a, b, s)
  {
    DivExact(a, s);
    DivExact(b, s);
    assert a - b == (a / s - b / s) * s;
    MulMod(a / s - b / s, s);
  }

  /** Divisibility is transitive. */
  lemma DivTrans(a: int, b: int, c: int)
    requires b > 0 && c > 0 && a % b == 0 && b % c == 0
    ensures a % c == 0
  {
    DivExact(a, b);
    DivExact(b, c);
    assert a == ((a / b) * (b / c)) * c by {
      assert a == (a / b) * ((b / c) * c);
    }
    MulMod((a / b) * (b / c), c);
  }

  /** The end of the base cell holding the window origin: the first multiple
      of the initial step above `v1`. */
  function CellEnd(v1: int, step0: int): (f: int)
    requires step0 > 0
    ensures f % step0 == 0 && v1 < f <= v1 + step0
  {
    var sx := BaseStart(v1, step0);
    DivExact(sx, step0);
    assert sx + 2 * step0 == (sx / step0 + 2) * step0;
    MulMod(sx / step0 + 2, step0);
    sx + 2 * step0
  }

  /** The two shapes of the region [lo, hi] along one axis at a loop head
      with step `s`: still the base region shrunk by whole steps around the
      base cell [f - step0, f] holding the origin, or already re-centred on
      the window [v1, v1 + dim] with a margin of one step. */
  predicate AxisState(v1: int, dim: int, step0: int, s: int, lo: int, hi: int)
    requires step0 > 0
  {
    var f := CellEnd(v1, step0) - step0;
    (lo == f - s && hi == f + step0 + s) ||
    (2 * s <= dim && lo == v1 - s && hi == v1 + dim + s)
  }

  /** The conditions under which the loop reasoning holds: a power-of-two
      window side, an origin aligned to it, and a step that is a power of two
      multiple of the side. */
  predicate Aligned(v1: int, dim: int, step0: int)
  {
    IsPow2(dim) && v1 % dim == 0 && IsPow2(step0) && step0 % dim == 0
  }

  /** The window [v1, v1 + dim) ends no later than the base cell holding its origin. */
  lemma WindowInCell(v1: int, dim: int, step0: int)
    requires Aligned(v1, dim, step0)
    ensures v1 + dim <= CellEnd(v1, step0)
  {
    var f := CellEnd(v1, step0);
    DivTrans(f, step0, dim);
    MultipleGap(v1, f, dim);
  }

  /** Whichever shape the region has, it contains the window [v1, v1 + dim]. */
  lemma AxisWindow(v1: int, dim: int, step0: int, s: int, lo: int, hi: int)
    requires Aligned(v1, dim, step0) && s >= 0
    requires AxisState(v1, dim, step0, s, lo, hi)
    ensures lo <= v1 && v1 + dim <= hi
  {
    WindowInCell(v1, dim, step0);
  }

  /** The region before the first pass: the snapped base region
      [BaseStart, BaseStart + 3 step0] has the first shape. */
  lemma AxisStart(v1: int, dim: int, step0: int)
    requires step0 > 0
    ensures AxisState(v1, dim, step0, step0, BaseStart(v1, step0), 3 * step0 + BaseStart(v1, step0))
  {
  }

  /** One pass along one axis. With h = s / 2 the new region [lo', hi'] is
      re-centred when s <= dim and shrunk by h otherwise. The old lattice
      (spacing s) then covers [lo' - h, hi' + h] as a sub-region, the new
      region spans whole steps, and it has one of the two shapes for the
      next step h. */
  lemma AxisAdvance(v1: int, dim: int, step0: int, s: int, lo: int, hi: int, lo': int, hi': int)
    requires Aligned(v1, dim, step0)
    requires IsPow2(s) && 2 <= s <= step0
    requires AxisState(v1, dim, step0, s, lo, hi)
    requires lo' == (if s <= dim then v1 - s / 2 else lo + s / 2)
    requires hi' == (if s <= dim then v1 + dim + s / 2 else hi - s / 2)
    ensures lo <= lo' - s / 2 && hi' + s / 2 <= hi && OnLattice(lo' - s / 2, lo, s)
    ensures OnLattice(hi', lo', s)
    ensures AxisState(v1, dim, step0, s / 2, lo', hi')
  {
    HalfPow2(s);
    Pow2Divides(s, step0);
    if s <= dim {
      AxisRecentre(v1, dim, step0, s, lo, hi);
    } else {
      AxisShrink(v1, dim, step0, s, lo, hi);
    }
  }

  /** The re-centring branch of `AxisAdvance`. */
  lemma AxisRecentre(v1: int, dim: int, step0: int, s: int, lo: int, hi: int)
    requires Aligned(v1, dim, step0)
    requires IsPow2(s) && 2 <= s <= dim && s % 2 == 0 && step0 % s == 0
    requires AxisState(v1, dim, step0, s, lo, hi)
    ensures lo <= v1 - s && v1 + dim + s <= hi && OnLattice(v1 - s, lo, s)
    ensures OnLattice(v1 + dim + s / 2, v1 - s / 2, s)
  {
    var f := CellEnd(v1, step0) - step0;
    Pow2Divides(s, dim);
    WindowInCell(v1, dim, step0);
    DivTrans(v1, dim, s);
    DivTrans(f + step0, step0, s);
    assert f % s == 0 by {
      MultiplesAligned(f + step0, step0, s);
    }
    MultiplesAligned(v1, f, s);
    assert OnLattice(v1 - s, f - s, s);
    assert OnLattice(v1 - s, v1 - s, s);
    DivExact(dim, s);
    MulMod(dim / s + 1, s);
    assert (v1 + dim + s / 2) - (v1 - s / 2) == (dim / s + 1) * s;
  }

  /** The shrinking branch of `AxisAdvance`: only the first shape is
      possible, since the second needs 2 s <= dim. */
  lemma AxisShrink(v1: int, dim: int, step0: int, s: int, lo: int, hi: int)
    requires step0 > 0 && dim >= 0 && s > dim && s >= 2 && s % 2 == 0 && step0 % s == 0
    requires AxisState(v1, dim, step0, s, lo, hi)
    ensures OnLattice(lo, lo, s)
    ensures OnLattice(hi - s / 2, lo + s / 2, s)
    ensures AxisState(v1, dim, step0, s / 2, lo + s / 2, hi - s / 2)
  {
    var f := CellEnd(v1, step0) - step0;
    var h := s / 2;
    assert s == 2 * h;
    assert lo == f - s && hi == f + step0 + s;
    assert lo + h == f - h && hi - h == f + step0 + h;
    var m := step0 / s;
    DivExact(step0, s);
    MulMod(m + 1, s);
    assert (hi - h) - (lo + h) == (m + 1) * s;
  }
}

=== FILE: terrain.dfy ===
/**
 A terrain and its height generation (terrain.js:19-111): the 4 x 4 base
 lattice of seeds around the origin, then refinement passes that halve the
 lattice spacing until it reaches 1. The generator reads only cells it has
 written and writes only heights in [0, 1]. Once a refinement pass runs
 (initial step at least 4) it leaves the requested window
 [x1, x1 + dimension) x [y1, y1 + dimension) fully written; with a smaller
 initial step only the base seeds are written.
 */
module Terrain {
  import opened Lattice
  import opened Grid
  import opened Params
  import opened Noise
  import opened Passes
  import opened Region

  /** A terrain: its construction arguments and the heights written so far. */
  datatype Terrain = Terrain(cfg: Config, heights: Grid)

  /** A freshly constructed terrain holds no heights yet. */
  function NewTerrain(c: Config): (t: Terrain)
    ensures t.cfg == c && t.heights == map[]
  {
    Terrain(c, map[])
  }

  /** The displacement of a pass at spacing `step`. */
  function PassNoise(c: Config, step: int): (int, int) -> real
  {
    (x: int, y: int) => Displace(c, x, y, step)
  }

  /** With zero roughness no pass displaces anything. */
  lemma NoiseFlat(c: Config, step: int)
    requires c.roughness == 0.0
    ensures forall x: int, y: int :: PassNoise(c, step)(x, y) == 0.0
  {
  }

  /** The diamond pass of one refinement, with what the rest of the
      iteration needs from it: old cells kept, centres written, heights
      clamped, flatness preserved. */
  method DiamondStage(c: Config, g: Grid, step: int, half: int, sx: int, ex: int, sy: int, ey: int)
    returns (r: Grid)
    requires half >= 1 && step == 2 * half
    requires Covers(g, step, sx - half, ex + half, sy - half, ey + half)
    ensures g.Keys <= r.Keys && WrittenInUnit(g, r)
    ensures Covers(r, step, sx - half, ex + half, sy - half, ey + half)
    ensures Covers(r, step, sx, ex, sy, ey)
    ensures forall k {:trigger LatticeCell(k, step, sx, ex, sy, ey)} :: LatticeCell(k, step, sx, ex, sy, ey) ==>
              k in r && r[k] == DiamondValue(PassNoise(c, step), g, k.0, k.1, half)
    ensures KeptOutside(g, r, step, sx, ex, sy, ey) && OnlyInside(g, r, step, sx, ex, sy, ey)
    ensures c.roughness == 0.0 && AllZero(g) ==> AllZero(r)
  {
    r := DiamondPass(PassNoise(c, step), g, step, half, sx, ex, sy, ey);
    PassGrows(Diamond, PassNoise(c, step), g, r, step, half, sx, ex, sy, ey);
    PassInUnit(Diamond, PassNoise(c, step), g, r, step, half, sx, ex, sy, ey);
    CoversGrow(g, r, step, sx - half, ex + half, sy - half, ey + half);
    if c.roughness == 0.0 && AllZero(g) {
      NoiseFlat(c, step);
      PassFlat(Diamond, PassNoise(c, step), g, r, step, half, sx, ex, sy, ey);
    }
  }

  /** The first square family of one refinement. */
  method SquareHStage(c: Config, g: Grid, step: int, half: int, sx: int, ex: int, sy: int, ey: int)
    returns (r: Grid)
    requires half >= 1 && step == 2 * half && OnLattice(ex, sx, step)
    requires Covers(g, step, sx - half, ex + half, sy - half, ey + half)
    requires Covers(g, step, sx, ex, sy, ey)
    ensures g.Keys <= r.Keys && WrittenInUnit(g, r)
    ensures Covers(r, step, sx - half, ex + half, sy - half, ey + half)
    ensures Covers(r, step, sx, ex, sy, ey)
    ensures Covers(r, step, sx + half, ex - half, sy, ey)
    ensures forall k {:trigger LatticeCell(k, step, sx + half, ex - half, sy, ey)} ::
              LatticeCell(k, step, sx + half, ex - half, sy, ey) ==>
              k in r && r[k] == SquareValue(PassNoise(c, step), g, k.0, k.1, half)
    ensures KeptOutside(g, r, step, sx + half, ex - half, sy, ey)
    ensures OnlyInside(g, r, step, sx + half, ex - half, sy, ey)
    ensures c.roughness == 0.0 && AllZero(g) ==> AllZero(r)
  {
    r := SquareHPass(PassNoise(c, step), g, step, half, sx, ex, sy, ey);
    PassGrows(Square, PassNoise(c, step), g, r, step, half, sx + half, ex - half, sy, ey);
    PassInUnit(Square, PassNoise(c, step), g, r, step, half, sx + half, ex - half, sy, ey);
    CoversGrow(g, r, step, sx - half, ex + half, sy - half, ey + half);
    CoversGrow(g, r, step, sx, ex, sy, ey);
    if c.roughness == 0.0 && AllZero(g) {
      NoiseFlat(c, step);
      PassFlat(Square, PassNoise(c, step), g, r, step, half, sx + half, ex - half, sy, ey);
    }
  }

  /** The second square family of one refinement. */
  method SquareVStage(c: Config, g: Grid, step: int, half: int, sx: int, ex: int, sy: int, ey: int)
    returns (r: Grid)
    requires half >= 1 && step == 2 * half && OnLattice(ey, sy, step)
    requires Covers(g, step, sx - half, ex + half, sy - half, ey + half)
    requires Covers(g, step, sx, ex, sy, ey)
    requires Covers(g, step, sx + half, ex - half, sy, ey)
    ensures g.Keys <= r.Keys && WrittenInUnit(g, r)
    ensures Covers(r, step, sx - half, ex + half, sy - half, ey + half)
    ensures Covers(r, step, sx, ex, sy, ey)
    ensures Covers(r, step, sx + half, ex - half, sy, ey)
    ensures Covers(r, step, sx, ex, sy + half, ey - half)
    ensures forall k {:trigger LatticeCell(k, step, sx, ex, sy + half, ey - half)} ::
              LatticeCell(k, step, sx, ex, sy + half, ey - half) ==>
              k in r && r[k] == SquareValue(PassNoise(c, step), g, k.0, k.1, half)
    ensures KeptOutside(g, r, step, sx, ex, sy + half, ey - half)
    ensures OnlyInside(g, r, step, sx, ex, sy + half, ey - half)
    ensures c.roughness == 0.0 && AllZero(g) ==> AllZero(r)
  {
    r := SquareVPass(PassNoise(c, step), g, step, half, sx, ex, sy, ey);
    PassGrows(Square, PassNoise(c, step), g, r, step, half, sx, ex, sy + half, ey - half);
    PassInUnit(Square, PassNoise(c, step), g, r, step, half, sx, ex, sy + half, ey - half);
    CoversGrow(g, r, step, sx - half, ex + half, sy - half, ey + half);
    CoversGrow(g, r, step, sx, ex, sy, ey);
    CoversGrow(g, r, step, sx + half, ex - half, sy, ey);
    if c.roughness == 0.0 && AllZero(g) {
      NoiseFlat(c, step);
      PassFlat(Square, PassNoise(c, step), g, r, step, half, sx, ex, sy + half, ey - half);
    }
  }

  /** One iteration of the refinement loop (terrain.js:87-106): the diamond
      centres, then the two families of square mid-points, each displaced by
      noise scaled to the current spacing `step`. Given the lattice of
      spacing `step` around the region, it leaves the region covered at
      spacing `half`, keeps every cell, and writes only clamped heights.
      Every cell it writes satisfies the diamond-square rule in the grid it
      leaves: a centre holds the clamped mean of its four corners plus its
      displacement, a mid-point that of its four axis neighbours. Every
      other cell keeps its height, and no other cell is added. */
  method Refine(c: Config, g: Grid, step: int, half: int, sx: int, ex: int, sy: int, ey: int)
    returns (r: Grid)
    requires half >= 1 && step == 2 * half
    requires OnLattice(ex, sx, step) && OnLattice(ey, sy, step)
    requires Covers(g, step, sx - half, ex + half, sy - half, ey + half)
    ensures Covers(r, half, sx, ex, sy, ey)
    ensures g.Keys <= r.Keys
    ensures WrittenInUnit(g, r)
    ensures c.roughness == 0.0 && AllZero(g) ==> AllZero(r)
    ensures forall k {:trigger LatticeCell(k, step, sx, ex, sy, ey)} :: LatticeCell(k, step, sx, ex, sy, ey) ==>
              k in r && r[k] == DiamondValue(PassNoise(c, step), r, k.0, k.1, half)
    ensures forall k {:trigger LatticeCell(k, step, sx + half, ex - half, sy, ey)} ::
              LatticeCell(k, step, sx + half, ex - half, sy, ey) ==>
              k in r && r[k] == SquareValue(PassNoise(c, step), r, k.0, k.1, half)
    ensures forall k {:trigger LatticeCell(k, step, sx, ex, sy + half, ey - half)} ::
              LatticeCell(k, step, sx, ex, sy + half, ey - half) ==>
              k in r && r[k] == SquareValue(PassNoise(c, step), r, k.0, k.1, half)
    ensures forall k {:trigger k in r} :: k in g && !Refined(k, step, half, sx, ex, sy, ey) ==>
              k in r && r[k] == g[k]
    ensures forall k {:trigger k in r} :: k in r ==> k in g || Refined(k, step, half, sx, ex, sy, ey)
  {
    var err := PassNoise(c, step);
    var g1 := DiamondStage(c, g, step, half, sx, ex, sy, ey);
    var g2 := SquareHStage(c, g1, step, half, sx, ex, sy, ey);
    r := SquareVStage(c, g2, step, half, sx, ex, sy, ey);
    RefineCovers(r, step, half, sx, ex, sy, ey);
    WrittenInUnitTrans(g, g1, g2);
    WrittenInUnitTrans(g, g2, r);
    CentresFinal(err, g, g1, g2, r, step, half, sx, ex, sy, ey);
    RowMidsFinal(err, g1, g2, r, step, half, sx, ex, sy, ey);
    ColMidsFinal(err, g2, r, step, half, sx, ex, sy, ey);
    RefineFrame(g, g1, g2, r, step, half, sx, ex, sy, ey);
  }

  /** Writes the base seeds (terrain.js:36-59): the 4 x 4 lattice of spacing
      `step` whose second cell holds the origin, each seed its clamped
      displacement. Every other cell keeps its height, and no other cell is
      added. */
  method Seeds(c: Config, g: Grid, step: int, sx: int, ex: int, sy: int, ey: int)
    returns (r: Grid)
    requires step > 0
    ensures forall k {:trigger LatticeCell(k, step, sx, ex, sy, ey)} :: LatticeCell(k, step, sx, ex, sy, ey) ==>
              k in r && r[k] == Normalize(Displace(c, k.0, k.1, step))
    ensures g.Keys <= r.Keys
    ensures WrittenInUnit(g, r)
    ensures KeptOutside(g, r, step, sx, ex, sy, ey) && OnlyInside(g, r, step, sx, ex, sy, ey)
    ensures c.roughness == 0.0 && AllZero(g) ==> AllZero(r)
  {
    r := SeedPass(PassNoise(c, step), g, step, sx, ex, sy, ey);
    PassGrows(Seed, PassNoise(c, step), g, r, step, 0, sx, ex, sy, ey);
    PassInUnit(Seed, PassNoise(c, step), g, r, step, 0, sx, ex, sy, ey);
    if c.roughness == 0.0 && AllZero(g) {
      NoiseFlat(c, step);
      PassFlat(Seed, PassNoise(c, step), g, r, step, 0, sx, ex, sy, ey);
    }
  }

  /** At spacing 1 coverage means every cell of the rectangle is written. */
  lemma UnitCovers(g: Grid, sx: int, ex: int, sy: int, ey: int, x: int, y: int)
    requires Covers(g, 1, sx, ex, sy, ey)
    requires sx <= x <= ex && sy <= y <= ey
    ensures (x, y) in g
  {
    MulMod(x - sx, 1);
    MulMod(y - sy, 1);
    assert LatticeCell((x, y), 1, sx, ex, sy, ey);
  }

  /** One turn of the refinement loop (terrain.js:63-109 up to the halving
      of `step`): the region is re-centred on the window once the step is no
      larger than it, and shrunk by half a step on each side otherwise; then
      the region is refined. The region keeps one of its two shapes, and it
      ends covered at the new spacing. The cells written and the cells kept
      are those of `Refine` on the new region. */
  method RefineRegion(c: Config, step0: int, g: Grid, step: int,
                      sx: int, ex: int, sy: int, ey: int)
    returns (r: Grid, half: int, sx': int, ex': int, sy': int, ey': int)
    requires Aligned(c.x1, c.dimension, step0) && Aligned(c.y1, c.dimension, step0)
    requires IsPow2(step) && 2 <= step <= step0
    requires AxisState(c.x1, c.dimension, step0, step, sx, ex)
    requires AxisState(c.y1, c.dimension, step0, step, sy, ey)
    requires Covers(g, step, sx, ex, sy, ey)
    ensures half == step / 2
    ensures step <= c.dimension ==>
              sx' == c.x1 - half && ex' == c.x1 + c.dimension + half &&
              sy' == c.y1 - half && ey' == c.y1 + c.dimension + half
    ensures step > c.dimension ==>
              sx' == sx + half && ex' == ex - half && sy' == sy + half && ey' == ey - half
    ensures AxisState(c.x1, c.dimension, step0, half, sx', ex')
    ensures AxisState(c.y1, c.dimension, step0, half, sy', ey')
    ensures Covers(r, half, sx', ex', sy', ey')
    ensures g.Keys <= r.Keys && WrittenInUnit(g, r)
    ensures c.roughness == 0.0 && AllZero(g) ==> AllZero(r)
    ensures forall k {:trigger LatticeCell(k, step, sx', ex', sy', ey')} :: LatticeCell(k, step, sx', ex', sy', ey') ==>
              k in r && r[k] == DiamondValue(PassNoise(c, step), r, k.0, k.1, half)
    ensures forall k {:trigger LatticeCell(k, step, sx' + half, ex' - half, sy', ey')} ::
              LatticeCell(k, step, sx' + half, ex' - half, sy', ey') ==>
              k in r && r[k] == SquareValue(PassNoise(c, step), r, k.0, k.1, half)
    ensures forall k {:trigger LatticeCell(k, step, sx', ex', sy' + half, ey' - half)} ::
              LatticeCell(k, step, sx', ex', sy' + half, ey' - half) ==>
              k in r && r[k] == SquareValue(PassNoise(c, step), r, k.0, k.1, half)
    ensures forall k {:trigger k in r} :: k in g && !Refined(k, step, half, sx', ex', sy', ey') ==>
              k in r && r[k] == g[k]
    ensures forall k {:trigger k in r} :: k in r ==> k in g || Refined(k, step, half, sx', ex', sy', ey')
  {
    half := step / 2;
    if step <= c.dimension {
      sx' := c.x1 - half;
      sy' := c.y1 - half;
      ex' := c.x1 + c.dimension + half;
      ey' := c.y1 + c.dimension + half;
    } else {
      sx' := sx + half;
      sy' := sy + half;
      ex' := ex - half;
      ey' := ey - half;
    }
    AxisAdvance(c.x1, c.dimension, step0, step, sx, ex, sx', ex');
    AxisAdvance(c.y1, c.dimension, step0, step, sy, ey, sy', ey');
    HalfPow2(step);
    CoversSub(g, step, sx, ex, sy, ey, sx' - half, ex' + half, sy' - half, ey' + half);
    r := Refine(c, g, step, half, sx', ex', sy', ey');
  }

  /** Once the spacing is 1 the window is written: the region contains it and
      every one of its cells is a lattice point. */
  lemma WindowCovered(c: Config, step0: int, g: Grid, sx: int, ex: int, sy: int, ey: int)
    requires Aligned(c.x1, c.dimension, step0) && Aligned(c.y1, c.dimension, step0)
    requires AxisState(c.x1, c.dimension, step0, 1, sx, ex)
    requires AxisState(c.y1, c.dimension, step0, 1, sy, ey)
    requires Covers(g, 1, sx, ex, sy, ey)
    ensures forall x: int, y: int ::
              (c.x1 <= x < c.x1 + c.dimension && c.y1 <= y < c.y1 + c.dimension) ==> Has(g, x, y)
  {
    AxisWindow(c.x1, c.dimension, step0, 1, sx, ex);
    AxisWindow(c.y1, c.dimension, step0, 1, sy, ey);
    forall x: int, y: int | c.x1 <= x < c.x1 + c.dimension && c.y1 <= y < c.y1 + c.dimension
      ensures Has(g, x, y)
    {
      UnitCovers(g, sx, ex, sy, ey, x, y);
    }
  }

  /** Generates the heights of a terrain (terrain.js:34-111).

      Every height written is in [0, 1] and no cell is lost; the base
      lattice is written; when the initial step is at least 4 every cell of
      the window [x1, x1 + dimension) x [y1, y1 + dimension) is written;
      with zero roughness a flat terrain stays flat. The ghost `trace` lists
      the spacing of each refinement pass: the initial step halved down to
      2, the last pass running with half = 1 because the loop tests the
      `half` of the previous pass; no pass runs when the initial step is
      below 4.

      The dimension must be a power of two, so that every coordinate stays a
      whole number; once a pass runs (initial step at least 4) the origin
      must also be a multiple of the dimension, so that every diamond and
      square reads a cell that is already written. */
  method GenerateHeights(t: Terrain) returns (r: Terrain, ghost trace: seq<int>)
    requires IsPow2(t.cfg.dimension)
    requires InitialStep(t.cfg) >= 4 ==>
               t.cfg.x1 % t.cfg.dimension == 0 && t.cfg.y1 % t.cfg.dimension == 0
    ensures r.cfg == t.cfg
    ensures t.heights.Keys <= r.heights.Keys
    ensures WrittenInUnit(t.heights, r.heights)
    ensures var step0 := InitialStep(t.cfg);
            var x0 := BaseStart(t.cfg.x1, step0);
            var y0 := BaseStart(t.cfg.y1, step0);
            Covers(r.heights, step0, x0, x0 + 3 * step0, y0, y0 + 3 * step0)
    ensures InitialStep(t.cfg) >= 4 ==>
              forall x: int, y: int ::
                (t.cfg.x1 <= x < t.cfg.x1 + t.cfg.dimension &&
                 t.cfg.y1 <= y < t.cfg.y1 + t.cfg.dimension) ==> Has(r.heights, x, y)
    ensures t.cfg.roughness == 0.0 && AllZero(t.heights) ==> AllZero(r.heights)
    ensures |trace| == 0 <==> InitialStep(t.cfg) < 4
    ensures |trace| > 0 ==> trace[0] == InitialStep(t.cfg) && trace[|trace| - 1] == 2
    ensures forall i :: 0 <= i < |trace| - 1 ==> trace[i] == 2 * trace[i + 1]
    ensures forall i :: 0 <= i < |trace| ==> 2 <= trace[i] && IsPow2(trace[i])
  {
    var c := t.cfg;
    var dimension := c.dimension;
    var step := InitialStep(c);
    var half := step / 2;
    var sx := BaseStart(c.x1, step);
    var sy := BaseStart(c.y1, step);
    var ex := step * 3 + sx;
    var ey := step * 3 + sy;
    var g := Seeds(c, t.heights, step, sx, ex, sy, ey);

    var step0 := step;
    ghost var base := g;
    assert Covers(base, step0, sx, ex, sy, ey);
    InitialStepPow2(c);
    AxisStart(c.x1, dimension, step0);
    AxisStart(c.y1, dimension, step0);
    trace := [];
    while half > 1
      invariant IsPow2(step) && step <= step0
      invariant (|trace| == 0 && step == step0 && half == step0 / 2) ||
                (|trace| > 0 && half == step && step0 >= 4 &&
                 trace[0] == step0 && trace[|trace| - 1] == 2 * step)
      invariant forall i :: 0 <= i < |trace| - 1 ==> trace[i] == 2 * trace[i + 1]
      invariant AxisState(c.x1, dimension, step0, step, sx, ex)
      invariant AxisState(c.y1, dimension, step0, step, sy, ey)
      invariant Covers(g, step, sx, ex, sy, ey)
      invariant base.Keys <= g.Keys && t.heights.Keys <= g.Keys
      invariant WrittenInUnit(t.heights, g)
      invariant c.roughness == 0.0 && AllZero(t.heights) ==> AllZero(g)
      decreases step
    {
      assert step0 >= 4;
      var g';
      g', half, sx, ex, sy, ey := RefineRegion(c, step0, g, step, sx, ex, sy, ey);
      WrittenInUnitTrans(t.heights, g, g');
      g := g';
      trace := trace + [step];
      step := step / 2;
    }

    if |trace| > 0 {
      HalvingFromTwo(trace);
    }
    CoversGrow(base, g, step0, BaseStart(c.x1, step0), BaseStart(c.x1, step0) + 3 * step0,
               BaseStart(c.y1, step0), BaseStart(c.y1, step0) + 3 * step0);
    if step0 >= 4 {
      WindowCovered(c, step0, g, sx, ex, sy, ey);
    }
    r := Terrain(c, g);
  }

  /** A 4-wide window at the origin with scale 1: the initial step is 4, the
      base lattice starts at -4 (seeds at -4, 0, 4, 8 on each axis), the
      extended size is 13, and two refinement passes follow, at steps 4 and
      2, after which the window and the base seeds are written. */
  method SmallWindow(sine: real -> real) returns (r: Terrain, ghost trace: seq<int>)
    ensures r.cfg == Config(0, 0, 4, 1.0, 1.0, 1, sine)
    ensures InitialStep(r.cfg) == 4 && BaseStart(0, 4) == -4 && GetSize(r.cfg) == 13.0
    ensures trace == [4, 2]
    ensures Has(r.heights, 0, 0) && Has(r.heights, 2, 0) && Has(r.heights, 0, 2)
    ensures Has(r.heights, 2, 2) && Has(r.heights, 3, 3) && Has(r.heights, 4, 0)
    ensures AllInUnit(r.heights)
  {
    var c := Config(0, 0, 4, 1.0, 1.0, 1, sine);
    assert IsPow2(2);
    assert InitialStep(c) == 4;
    r, trace := GenerateHeights(NewTerrain(c));
    assert LatticeCell((4, 0), 4, -4, 8, -4, 8);
    WrittenInUnitAll(map[], r.heights);
    HalvingLength(trace);
    Pow2AtLeastEight(|trace|);
  }

  /** A sequence of spacings, each twice the next, that ends at 2 holds only
      powers of two of at least 2. */
  lemma {:induction false} HalvingFromTwo(t: seq<int>)
    requires |t| > 0 && t[|t| - 1] == 2
    requires forall i :: 0 <= i < |t| - 1 ==> t[i] == 2 * t[i + 1]
    ensures forall i :: 0 <= i < |t| ==> 2 <= t[i] && IsPow2(t[i])
  {
    assert IsPow2(2) by {
      assert IsPow2(1);
    }
    if |t| > 1 {
      HalvingFromTwo(t[1..]);
      forall i | 0 <= i < |t|
        ensures 2 <= t[i] && IsPow2(t[i])
      {
        if i > 0 {
          assert t[i] == t[1..][i - 1];
        } else {
          assert t[1] == t[1..][0];
          DoublePow2(t[1]);
        }
      }
    }
  }

  /** A sequence of spacings, each twice the next and none below 2, starts
      at 2^length or more: so the number of passes is at most the base-2
      logarithm of the first spacing. */
  lemma {:induction false} HalvingLength(t: seq<int>)
    requires |t| > 0
    requires forall i :: 0 <= i < |t| - 1 ==> t[i] == 2 * t[i + 1]
    requires forall i :: 0 <= i < |t| ==> 2 <= t[i]
    ensures Pow2(|t|) <= t[0]
  {
    if |t| > 1 {
      HalvingLength(t[1..]);
      assert t[0] == 2 * t[1];
    }
  }

  /** 2^e is at least 8 from e = 3 on. */
  lemma Pow2AtLeastEight(e: nat)
    ensures e >= 3 ==> Pow2(e) >= 8
  {
    if e >= 3 {
      assert Pow2(e) == 2 * Pow2(e - 1) == 4 * Pow2(e - 2) == 8 * Pow2(e - 3);
    }
  }

  /** A 2-wide window at (1, 1) with scale 1: the initial step is 2, so no
      refinement pass runs and the origin need not be aligned; only the
      base seeds, at -2, 0, 2, 4 on each axis, are written. */
  method TinyWindow(sine: real -> real) returns (r: Terrain, ghost trace: seq<int>)
    ensures r.cfg == Config(1, 1, 2, 1.0, 1.0, 1, sine)
    ensures InitialStep(r.cfg) == 2 && BaseStart(1, 2) == -2
    ensures trace == []
    ensures forall x: int, y: int :: -2 <= x <= 4 && -2 <= y <= 4 && x % 2 == 0 && y % 2 == 0 ==>
              Has(r.heights, x, y)
    ensures AllInUnit(r.heights)
  {
    var c := Config(1, 1, 2, 1.0, 1.0, 1, sine);
    assert IsPow2(2);
    r, trace := GenerateHeights(NewTerrain(c));
    forall x: int, y: int | -2 <= x <= 4 && -2 <= y <= 4 && x % 2 == 0 && y % 2 == 0
      ensures Has(r.heights, x, y)
    {
      assert LatticeCell((x, y), 2, -2, 4, -2, 4);
    }
    WrittenInUnitAll(map[], r.heights);
  }

  /** A 256-wide window at the origin with scale 1 meets the conditions of
      `GenerateHeights` with an initial step of 256, and generation writes
      every cell of [0, 256) x [0, 256), each in [0, 1]. */
  method WideWindow(sine: real -> real) returns (r: Terrain)
    ensures r.cfg == Config(0, 0, 256, 42.0, 1.0, 1, sine) && InitialStep(r.cfg) == 256
    ensures forall x: int, y: int :: 0 <= x < 256 && 0 <= y < 256 ==> Has(r.heights, x, y)
    ensures AllInUnit(r.heights)
  {
    var c := Config(0, 0, 256, 42.0, 1.0, 1, sine);
    assert IsPow2(2) && IsPow2(4) && IsPow2(8) && IsPow2(16);
    assert IsPow2(32) && IsPow2(64) && IsPow2(128) && IsPow2(256);
    assert InitialStep(c) == 256;
    ghost var trace;
    r, trace := GenerateHeights(NewTerrain(c));
    WrittenInUnitAll(map[], r.heights);
  }
}
